=== FILE: README.md ===
# Member management of unionflow, in Dafny

This project models the member core of the unionflow Quarkus service.

- **Domain record.** A member (`Membre`) has a status (`StatutMembre`: ACTIF, INACTIF, SUSPENDU, RADIE). It has two derived values: good standing (`estEnRegle`) and the full name.
- **Request.** `CreationMembreRequest` carries validation constraints.
- **Stored row.** `MembreEntity` has column constraints, unique keys on code and email, a foreign key to the sponsor ("parrain"), and the `prePersist`/`preUpdate` hooks.
- **Mapper.** `MembreMapperImpl` converts between request, member, row and response.
- **Repository.** `MembreRepositoryImpl` is a class holding the table as a map from id to row. It provides insert-or-update `sauvegarder`, the queries, `supprimer`, and the member-code generator.
- **Application service.** `MembreService` is a class over the repository. It holds the business rules for creating, reading, listing, updating, changing the status of and deleting members.

Every exception is a value of `Errors.Error`:

- `NotFound` and `SponsorNotFound` stand for `NotFoundException`.
- `EmailDejaUtilise` stands for `EmailDejaUtiliseException`.
- `ConstraintViolation` is a flush the database or bean validation refuses.
- `InternalError` is a null dereference, a substring out of range, or the stack overflow of a cyclic sponsor chain.

Every writing service operation (`creerMembre`, `mettreAJourMembre`, `changerStatutMembre`, `supprimerMembre`) is transactional, so any failure leaves the table unchanged. The reading ones write nothing.

The table invariant is `Entity.TableValid`. It requires that every row is stored under its own id, satisfies its column constraints and names only a stored sponsor; that codes are unique; that non-null emails are unique, with `""` counting as a value; and that the sponsor chain has no cycle. `Sauvegarder` and `Supprimer` preserve it.

The environment is passed in as parameters: today's date, the current time, the current year, and the UUID the generator hands out (`Repository.Env`).

What the Java code does, and the model with it:

- The member code is `"M-"`, the upper-cased initials of first and last name, `"-"`, the year without its first two digits, and then the count of stored codes starting with that prefix plus one, zero-padded to four digits (`MembreRepositoryImpl.java:130-138`).
- A code collision is not retried; it surfaces as the unique-key violation on code.
- Only the flush validates the data. Request validation belongs to the REST layer, which is not modelled.
- Deleting a member that another member names as sponsor is refused by the foreign key on `id_parrain` (a constraint violation); the service does not detach the sponsored members first.

## Model

| member | source | states |
|---|---|---|
| Domain.Membre.EstEnRegle | src/main/java/dev/lions/domain/model/Membre.java:52-54 | good standing: `actif` is set and the status is ACTIF |
| Domain.NonActifNeverEnRegle | src/main/java/dev/lions/domain/model/Membre.java:52-54 | INACTIF, SUSPENDU and RADIE never give good standing, whatever `actif` is |
| Domain.EstEnRegleDependsOnStatutAndActif | src/main/java/dev/lions/domain/model/Membre.java:52-54 | good standing depends on status and `actif` only |
| Domain.Membre.NomComplet | src/main/java/dev/lions/domain/model/Membre.java:61-63 | the full name is first name, one space, last name; its length is the sum plus one; a null part reads "null" |
| Domain.Membre.MettreAJourDateModification | src/main/java/dev/lions/domain/model/Membre.java:68-70 | sets `dateModification` to now; every other field, status, code and sponsor included, is unchanged |
| Requests.Valid | src/main/java/dev/lions/application/dto/request/CreationMembreRequest.java:26-47 | bean validation of the request on day `today`: last and first name non-blank with 2 to 100 characters, email well-formed and at most 150, telephone at most 20, birth date in the past, profession at most 100; null passes every check but `@NotBlank` |
| Requests.ValidHasInitials | src/main/java/dev/lions/application/dto/request/CreationMembreRequest.java:26-32 | a valid request has last and first names of 2 to 100 characters, so the code generator's first-character reads succeed |
| Requests.MissingOrBlankNameInvalid | src/main/java/dev/lions/application/dto/request/CreationMembreRequest.java:26-32 | a null or blank name makes the request invalid |
| Requests.ValidDependsOnlyOnConstrainedFields | src/main/java/dev/lions/application/dto/request/CreationMembreRequest.java:44-51 | `adresse`, `photoUrl` and `idParrain` are unconstrained: changing them keeps a valid request valid |
| Requests.FutureBirthDateInvalid | src/main/java/dev/lions/application/dto/request/CreationMembreRequest.java:41-42 | a birth date on or after today is refused (`@Past`) |
| Entity.ColumnsValid | src/main/java/dev/lions/infrastructure/persistence/entity/MembreEntity.java:60-109 | the column constraints of a row: code, last and first name non-blank with their sizes, email well-formed and at most 150, the size limits of telephone, address, profession and photo URL, status and join date non-null |
| Entity.TableValid | src/main/java/dev/lions/infrastructure/persistence/entity/MembreEntity.java:43-116 | the table invariant: each row stored under its own id, meeting its column constraints and naming only a stored sponsor; codes unique; non-null emails unique; no sponsor chain leading back to its start |
| Entity.PrePersist | src/main/java/dev/lions/infrastructure/persistence/entity/MembreEntity.java:122-128 | the join date becomes today only if it was null; the modification time becomes now; nothing else changes |
| Entity.PreUpdate | src/main/java/dev/lions/infrastructure/persistence/entity/MembreEntity.java:130-133 | the modification time becomes now and nothing else changes |
| Entity.HooksKeepColumns | src/main/java/dev/lions/infrastructure/persistence/entity/MembreEntity.java:122-133 | preUpdate, and prePersist on a row whose join date is set, never change whether the row meets its column constraints |
| Entity.AcyclicAfterWrite | src/main/java/dev/lions/infrastructure/persistence/entity/MembreEntity.java:114-116 | rewriting one row's sponsor keeps the sponsor chains acyclic when that row does not lead back to itself |
| Entity.AcyclicAfterInsert | src/main/java/dev/lions/infrastructure/persistence/entity/MembreEntity.java:114-116 | inserting a row whose sponsor is stored keeps the chains acyclic |
| Entity.AcyclicAfterDelete | src/main/java/dev/lions/infrastructure/persistence/entity/MembreEntity.java:114-116 | deleting a row nobody names as sponsor keeps the chains acyclic |
| Mapper.ToEntity | src/main/java/dev/lions/application/mapper/MembreMapperImpl.java:22-43 | every data field is copied; the id and the sponsor are not |
| Mapper.EntityToDomaine | src/main/java/dev/lions/application/mapper/MembreMapperImpl.java:46-75 | the member carries the row's id and data; it has a sponsor exactly when the row does, and that sponsor is the sponsor row converted; a chain that revisits a row gives None (the stack overflow) |
| Mapper.EntityRoundTrip | src/main/java/dev/lions/application/mapper/MembreMapperImpl.java:22-67 | converting a member to a row and back gives the member without its id and sponsor |
| Mapper.EntityToDomaineNoRevisit | src/main/java/dev/lions/application/mapper/MembreMapperImpl.java:69-72 | when the conversion succeeds, no walk from the sponsor reaches a row already visited |
| Mapper.ConvertedRowLeadsNotBack | src/main/java/dev/lions/application/mapper/MembreMapperImpl.java:69-72 | a row that converts does not lead back to itself along the sponsor chain |
| Mapper.EntityToDomaineTotal | src/main/java/dev/lions/application/mapper/MembreMapperImpl.java:69-72 | on an acyclic table with its foreign key, the recursion always terminates with a member |
| Mapper.StoredRowConverts | src/main/java/dev/lions/application/mapper/MembreMapperImpl.java:46-75 | every row of a valid table converts |
| Mapper.RequestToDomaine | src/main/java/dev/lions/application/mapper/MembreMapperImpl.java:78-96 | the eight request fields are copied, with status ACTIF, `actif` set and today as join date; id, code, photo, sponsor and modification time are null; the member is in good standing |
| Mapper.ValidRequestGivesValidRow | src/main/java/dev/lions/application/mapper/MembreMapperImpl.java:78-96 | the row stored for a valid request meets every column constraint, given a code and `adresse`/`photoUrl` of at most 255 characters |
| Mapper.ToResponse | src/main/java/dev/lions/application/mapper/MembreMapperImpl.java:99-128 | `nomComplet` and `enRegle` are the member's full name and good standing; the sponsor's name is set exactly when there is a sponsor, and the two sponsor fields carry that sponsor's id and full name |
| Mapper.ToResponseLosesOnlyPhotoAndSponsor | src/main/java/dev/lions/application/mapper/MembreMapperImpl.java:99-128 | two sponsor-less members with the same photo and the same response are equal: only the photo and the sponsor's record are dropped |
| Mapper.ToResponseList | src/main/java/dev/lions/application/mapper/MembreMapperImpl.java:131-142 | null gives null; otherwise the list has the same length and order, with element i the response of member i |
| Mapper.UpdateMembreFromRequest | src/main/java/dev/lions/application/mapper/MembreMapperImpl.java:145-158 | the eight request fields are overwritten, null included; id, code, status, join date, `actif`, photo, sponsor and modification time are kept; a null request changes nothing |
| Mapper.UpdateIdempotent | src/main/java/dev/lions/application/mapper/MembreMapperImpl.java:145-158 | applying the same request twice is applying it once |
| Mapper.UpdateKeepsStanding | src/main/java/dev/lions/application/mapper/MembreMapperImpl.java:145-158 | applying a request never changes good standing |
| CodeGenerator.GenererCodeUnique | src/main/java/dev/lions/infrastructure/persistence/repository/MembreRepositoryImpl.java:129-139 | fails with InternalError exactly when a name is null or empty or the year has fewer than two digits |
| CodeGenerator.GeneratedCodeShape | src/main/java/dev/lions/infrastructure/persistence/repository/MembreRepositoryImpl.java:129-139 | the code is `M-`, the upper-cased initials of first and last name and `-`, then the prefix's digits, then at least four digits that read back as the count of codes with that prefix plus one |
| CodeGenerator.GeneratedCodeLength | src/main/java/dev/lions/infrastructure/persistence/repository/MembreRepositoryImpl.java:129-139 | with a four-digit year and fewer than 9999 codes on the prefix, the code has 11 characters |
| CodeGenerator.FirstCodeForJeanDupont | src/main/java/dev/lions/infrastructure/persistence/repository/MembreRepositoryImpl.java:129-139 | Jean Dupont in 2025, with no code on `M-JD-25`, gets `M-JD-250001` |
| CodeGenerator.SecondCodeForSameInitials | src/main/java/dev/lions/infrastructure/persistence/repository/MembreRepositoryImpl.java:129-139 | with one code on `M-JD-25`, Julie Dupont in 2025 gets `M-JD-250002` |
| CodeGenerator.GeneratedCodeFresh | src/main/java/dev/lions/infrastructure/persistence/repository/MembreRepositoryImpl.java:129-139 | the code is unused when every stored code on the prefix carries a sequence number no larger than the count |
| CodeGenerator.GeneratedCodeRepeatsAfterDeletion | src/main/java/dev/lions/infrastructure/persistence/repository/MembreRepositoryImpl.java:116-139 | without that condition, e.g. after the first code of a prefix is deleted, the generator returns a code still in use |
| CodeGenerator.YearPartIsLastTwoDigits | src/main/java/dev/lions/infrastructure/persistence/repository/MembreRepositoryImpl.java:131 | for a four-digit year, dropping the first two characters of its decimal form leaves two digits that read back as the year modulo 100 |
| CodeFormat.NatToString | src/main/java/dev/lions/infrastructure/persistence/repository/MembreRepositoryImpl.java:131 | `String.valueOf` of a natural number is a non-empty digit string, of one digit exactly for numbers below ten |
| CodeFormat.NatToStringRoundTrip | src/main/java/dev/lions/infrastructure/persistence/repository/MembreRepositoryImpl.java:131 | reading the decimal rendering back gives the number |
| CodeFormat.Pad4RoundTrip | src/main/java/dev/lions/infrastructure/persistence/repository/MembreRepositoryImpl.java:138 | `%04d` reads back as the number and has at least four digits |
| CodeFormat.Pad4Injective | src/main/java/dev/lions/infrastructure/persistence/repository/MembreRepositoryImpl.java:138 | distinct sequence numbers give distinct padded forms |
| CodeFormat.AsciiUpper | src/main/java/dev/lions/infrastructure/persistence/repository/MembreRepositoryImpl.java:130 | lower-case ASCII letters become their upper-case letters; every other character is kept |
| Repository.ChercherParId | src/main/java/dev/lions/infrastructure/persistence/repository/MembreRepositoryImpl.java:76-79 | a found member has the stored row's id and data; an absent id gives nothing |
| Repository.ChercherParIdFindsStored | src/main/java/dev/lions/infrastructure/persistence/repository/MembreRepositoryImpl.java:76-79 | on a valid table the lookup succeeds exactly for stored ids and carries that id |
| Repository.ChercherParCode | src/main/java/dev/lions/infrastructure/persistence/repository/MembreRepositoryImpl.java:82-86 | a member found by code has that code |
| Repository.ChercherParCodeFindsRow | src/main/java/dev/lions/infrastructure/persistence/repository/MembreRepositoryImpl.java:82-86 | on a valid table the lookup by code gives the same member as the lookup by id of the row holding the code |
| Repository.ChercherParEmail | src/main/java/dev/lions/infrastructure/persistence/repository/MembreRepositoryImpl.java:89-93 | a member found by email has that email |
| Repository.ChercherParEmailFindsRow | src/main/java/dev/lions/infrastructure/persistence/repository/MembreRepositoryImpl.java:89-93 | on a valid table the lookup by email gives the same member as the lookup by id of the row holding it |
| Repository.EmailExiste | src/main/java/dev/lions/infrastructure/persistence/repository/MembreRepositoryImpl.java:111-113 | the count is positive exactly when some stored row has the email |
| Repository.EmailExisteIffFound | src/main/java/dev/lions/infrastructure/persistence/repository/MembreRepositoryImpl.java:89-113 | on a valid table `emailExiste` holds exactly when `chercherParEmail` finds a member |
| Repository.ConvertRows | src/main/java/dev/lions/infrastructure/persistence/repository/MembreRepositoryImpl.java:96-108 | the loop returns each of the given rows, converted, exactly once |
| Repository.ListerTous | src/main/java/dev/lions/infrastructure/persistence/repository/MembreRepositoryImpl.java:96-100 | every stored member appears exactly once, as its lookup by id gives it |
| Repository.ListerParStatut | src/main/java/dev/lions/infrastructure/persistence/repository/MembreRepositoryImpl.java:103-108 | exactly the stored members with the status appear, each once |
| Repository.Admissible | src/main/java/dev/lions/infrastructure/persistence/repository/MembreRepositoryImpl.java:70-71 | what the flush accepts as row x: bean validation on day `today`, on an insert an unused primary key, a sponsor that is stored (or the row itself), and no other row with the same code or the same non-null email |
| Repository.Flush | src/main/java/dev/lions/infrastructure/persistence/repository/MembreRepositoryImpl.java:70-72 | the write is refused with ConstraintViolation exactly when validation, the primary, foreign or unique keys fail; on success the row is in place and the member returned is its lookup |
| Repository.Sauvegarde | src/main/java/dev/lions/infrastructure/persistence/repository/MembreRepositoryImpl.java:31-73 | an update keeps the set of ids, an insert adds the generated one; failures are only constraint violations or internal errors |
| Repository.SauvegardeKeepsTableValid | src/main/java/dev/lions/infrastructure/persistence/repository/MembreRepositoryImpl.java:31-73 | a successful save keeps the table invariant |
| Repository.SavedMemberReadsBack | src/main/java/dev/lions/infrastructure/persistence/repository/MembreRepositoryImpl.java:70-72 | the member a save returns is the new table's lookup of its id |
| Repository.UpdateKeepsIdentity | src/main/java/dev/lions/infrastructure/persistence/repository/MembreRepositoryImpl.java:34-55 | saving a stored member rewrites only its row, copies the eleven fields, relinks the sponsor, and keeps code, join date and id; the modification time becomes now when any other column changed and stays otherwise |
| Repository.UpdateNeverClearsSponsor | src/main/java/dev/lions/infrastructure/persistence/repository/MembreRepositoryImpl.java:52-54 | without a sponsor id on the member, the stored sponsor is kept |
| Repository.InsertAddsOneRow | src/main/java/dev/lions/infrastructure/persistence/repository/MembreRepositoryImpl.java:34-72 | an insert adds exactly one row under the generated id, stamped by prePersist, carrying every data field of the member; without an id a null or empty code is generated and the sponsor linked; with an unknown id only the conversion applies |
| Repository.NewEntityShape | src/main/java/dev/lions/infrastructure/persistence/repository/MembreRepositoryImpl.java:56-68 | the row built for an insert carries every data field of the member, with no id; without an id, a null or empty code is replaced by the generated one and the sponsor linked; with an unknown id the code is kept and no sponsor is linked |
| Repository.InsertWithTakenEmailRefused | src/main/java/dev/lions/infrastructure/persistence/entity/MembreEntity.java:43-45 | inserting a member whose non-null email, the empty string included, a stored row already holds always fails |
| Repository.InsertAfterDeletionCollides | src/main/java/dev/lions/infrastructure/persistence/repository/MembreRepositoryImpl.java:56-72 | once a deletion has left only the second code of a prefix, the next insert on that prefix is refused by the unique key on code |
| Repository.MembreRepositoryImpl.constructor | src/main/java/dev/lions/infrastructure/persistence/repository/MembreRepositoryImpl.java:24 | the table starts empty and valid |
| Repository.MembreRepositoryImpl.Sauvegarder | src/main/java/dev/lions/infrastructure/persistence/repository/MembreRepositoryImpl.java:31-73 | the imperative save gives `Sauvegarde`'s outcome, keeps the table on failure and keeps the invariant |
| Repository.MembreRepositoryImpl.Supprimer | src/main/java/dev/lions/infrastructure/persistence/repository/MembreRepositoryImpl.java:116-119 | an absent id gives false with no change; a row named as sponsor is refused by the foreign key; otherwise the row is removed, true is returned and the lookup then finds nothing |
| Service.Creer | src/main/java/dev/lions/application/service/MembreService.java:45-72 | `creerMembre` as a function of the table: the email check, the conversion of the request, the sponsor lookup, then the save |
| Service.MettreAJour | src/main/java/dev/lions/application/service/MembreService.java:128-163 | `mettreAJourMembre`: the lookup, the email check against other members, the request applied, the sponsor looked up only when it changes, the modification time stamped, then the save |
| Service.ChangerStatut | src/main/java/dev/lions/application/service/MembreService.java:174-188 | `changerStatutMembre`: the lookup, the new status (possibly null, as the query parameter is optional), the modification time stamped, then the save |
| Service.CreerEmailRule | src/main/java/dev/lions/application/service/MembreService.java:49-54 | creation fails with EmailDejaUtilise exactly when the email is non-null, non-empty and stored |
| Service.CreerSponsorRule | src/main/java/dev/lions/application/service/MembreService.java:60-64 | an unknown sponsor id fails with SponsorNotFound; a created row is linked to exactly the requested sponsor |
| Service.CreerSuccess | src/main/java/dev/lions/application/service/MembreService.java:45-72 | a successful creation adds exactly one row, in status ACTIF with `actif` set, joined today, with the eight request fields, no photo and the generated code; the member returned carries the new id and is in good standing |
| Service.CreerSucceeds | src/main/java/dev/lions/application/service/MembreService.java:45-72 | a valid request, with unused email, a stored sponsor and an unused generated code, is created |
| Service.CreerEmptyEmailTwice | src/main/java/dev/lions/application/service/MembreService.java:49-54 | a second creation with email "" passes the service's check but fails at the unique key |
| Service.MettreAJourNotFound | src/main/java/dev/lions/application/service/MembreService.java:131-135 | the update fails with NotFound exactly for an id that is not stored |
| Service.MettreAJourEmailRule | src/main/java/dev/lions/application/service/MembreService.java:138-142 | the update fails with EmailDejaUtilise exactly when the new email is non-null, non-empty, different from the current one and stored |
| Service.MettreAJourKeeps | src/main/java/dev/lions/application/service/MembreService.java:144-159 | a successful update changes only the member's row; id, code, join date, status and `actif` stay; the eight request fields are applied; the sponsor becomes the requested one or stays; the modification time becomes now when any other column changed and stays otherwise |
| Service.MettreAJourSponsorNotFound | src/main/java/dev/lions/application/service/MembreService.java:148-153 | an unknown sponsor id fails with SponsorNotFound before anything is saved |
| Service.ChangerStatutNotFound | src/main/java/dev/lions/application/service/MembreService.java:177-178 | the status change fails with NotFound exactly for an id that is not stored |
| Service.ChangerStatutSets | src/main/java/dev/lions/application/service/MembreService.java:180-183 | a successful change sets the status and changes nothing else but the modification time, which becomes now when the status changed and stays otherwise |
| Service.ChangerStatutNullRefused | src/main/java/dev/lions/application/service/MembreService.java:179-183 | a null status on a stored member is refused by the flush (non-null status column) with ConstraintViolation |
| Service.ChangerStatutSameIsNoOp | src/main/java/dev/lions/application/service/MembreService.java:180-183 | setting the status a member already has writes nothing |
| Service.ChangerStatutTwice | src/main/java/dev/lions/application/service/MembreService.java:180-183 | changing to the same status twice leaves the table as after the first change |
| Service.MembreService.CreerMembre | src/main/java/dev/lions/application/service/MembreService.java:45-72 | the method gives `Creer`'s outcome as a response, keeps the table on failure and keeps the invariant |
| Service.MembreService.GetMembre | src/main/java/dev/lions/application/service/MembreService.java:81-91 | NotFound exactly for an unknown id; for a stored id, always the response of the stored member as the lookup reads it |
| Service.MembreService.ListerTousMembres | src/main/java/dev/lions/application/service/MembreService.java:98-103 | one response per stored member, each exactly once |
| Service.MembreService.ListerMembresParStatut | src/main/java/dev/lions/application/service/MembreService.java:111-116 | one response per stored member with the status, each exactly once |
| Service.MembreService.MettreAJourMembre | src/main/java/dev/lions/application/service/MembreService.java:128-163 | the method gives `MettreAJour`'s outcome as a response, keeps the table on failure and keeps the invariant; on success the row's modification time is now exactly when another column changed |
| Service.MembreService.ChangerStatutMembre | src/main/java/dev/lions/application/service/MembreService.java:174-188 | the method gives `ChangerStatut`'s outcome as a response, keeps the table on failure and keeps the invariant; on success the row differs only in its status and in a modification time stamped exactly when the status changed |
| Service.MembreService.SupprimerMembre | src/main/java/dev/lions/application/service/MembreService.java:198-214 | an unknown id gives NotFound and deletes nothing; otherwise the repository's result: refused while the member sponsors another, else removed and true |

## Left out

- Membre is modelled as an immutable value, not an object. The Lombok setters, `mettreAJourDateModification` and `updateMembreFromRequest` return updated copies instead of mutating their receiver. Aliasing between a member and its sponsor object is therefore not modelled.
- Entity rows are values in the repository's map. `prePersist`/`preUpdate` are functions on rows rather than mutations of a managed entity.
- Service.Creer and Service.MettreAJour: a null request body is not modelled; the request is always present. In `creerMembre` it would fail on `request.getPrenom()`, and in `mettreAJourMembre` on `request.getEmail()` after the NotFound check. Either way that is an InternalError (a NullPointerException) with the transaction rolled back and the table unchanged.
- The null guards of `toEntity`, `entityToDomaine`, `requestToDomaine` and `toResponse` are not modelled, because no caller passes null. `toResponseList` and `updateMembreFromRequest` do model null.
- Mapper.EntityToDomaine: a sponsor chain that revisits a row gives None where the Java code overflows its stack. Where a lookup relies on it, this appears as nothing found, which a valid table never produces.
- Repository.ChercherParCode and Repository.ChercherParEmail: `firstResultOptional` fixes no order, so the model takes the row with the lowest id. With the unique keys, at most one row matches.
- Repository.ListerTous and Repository.ListerParStatut: the order of the list is left unspecified, as in the Java code. They require the table invariant, because the Java code would overflow on a cyclic chain.
- Repository.Flush: an update is validated and written only when a field changed, which is Hibernate's dirty check. Validation is modelled as one check at flush.
- Clock and identifiers: `LocalDate.now()`, `LocalDateTime.now()`, `Year.now()` and the UUID generator are one reading per call, passed in as `Env`. Several readings within one call are collapsed into one.
- Identifiers are natural numbers, because only their equality matters. Dates and times are integers.
- CodeFormat.AsciiUpper: `toUpperCase` is locale-dependent; only ASCII letters are upper-cased.
- CodeFormat.NatToString: negative years are not modelled.
- CodeFormat.Pad4: `String.format("%04d")` uses the default locale, which may render other digits; the model writes ASCII digits.
- CodeGenerator.CountCodePrefix: the SQL `LIKE 'prefix%'` is a plain prefix match. The `_` and `%` wildcards inside the prefix are not interpreted.
- Constraints.EmailAddress: this is a simplified stand-in for Hibernate Validator's `@Email` pattern. `@Size` counts characters, not UTF-16 units.
- Concurrency and the code-generation race between transactions are not modelled. Each operation is one atomic step.
- Logging, the REST resource, `@RolesAllowed`, the exception-to-HTTP mapping, the MapStruct mapper `MembreEntityMapper` and the domain-service interface are not part of this model.
- Photo contents are opaque byte sequences.

=== FILE: codeformat.dfy ===
/**
 * The text formatting the member code is built with: the decimal rendering
 * of a number (String.valueOf), its four-digit zero-padded form
 * (String.format("%04d", n)), and upper-casing of a character.
 */
module CodeFormat {

  predicate IsDigit(c: char) {
    '0' <= c <= '9'
  }

  predicate AllDigits(s: string) {
    forall i :: 0 <= i < |s| ==> IsDigit(s[i])
  }

  /** The character of a decimal digit. */
  function Digit(d: nat): (c: char)
    requires d < 10
    ensures IsDigit(c) && c as int - '0' as int == d
  {
    ('0' as int + d) as char
  }

  /** String.valueOf(n) for a non-negative n: its decimal digits, no leading zero. */
  function NatToString(n: nat): (s: string)
    ensures 1 <= |s| && AllDigits(s)
    ensures n < 10 <==> |s| == 1
    decreases n
  {
    if n < 10 then [Digit(n)] else NatToString(n / 10) + [Digit(n % 10)]
  }

  /** The number a string of decimal digits denotes (leading zeros allowed). */
  function DecimalValue(s: string): nat
    requires AllDigits(s)
  {
    if s == [] then 0 else 10 * DecimalValue(s[..|s| - 1]) + (s[|s| - 1] as int - '0' as int)
  }

  /** k zero characters. */
  function Zeros(k: nat): (s: string)
    ensures |s| == k && AllDigits(s)
  {
    if k == 0 then [] else "0" + Zeros(k - 1)
  }

  /** String.format("%04d", n) for n >= 0: zero-padded on the left to at least four digits. */
  function Pad4(n: nat): (s: string)
    ensures AllDigits(s)
  {
    var digits := NatToString(n);
    if |digits| < 4 then Zeros(4 - |digits|) + digits else digits
  }

  /** Upper-casing of one character, on the ASCII letters; every other character is kept. */
  function AsciiUpper(c: char): (u: char)
    ensures 'a' <= c <= 'z' ==> 'A' <= u <= 'Z' && u as int == c as int - 32
    ensures !('a' <= c <= 'z') ==> u == c
  {
    if 'a' <= c <= 'z' then (c as int - 32) as char else c
  }

  /** Reading back the decimal rendering gives the number. */
  lemma {:induction false} NatToStringRoundTrip(n: nat)
    ensures DecimalValue(NatToString(n)) == n
    decreases n
  {
    if n >= 10 {
      var s := NatToString(n);
      assert s[..|s| - 1] == NatToString(n / 10);
      NatToStringRoundTrip(n / 10);
    }
  }

  /** A leading zero does not change the value. */
  lemma {:induction false} LeadingZeroIgnored(s: string)
    requires AllDigits(s)
    ensures DecimalValue("0" + s) == DecimalValue(s)
    decreases |s|
  {
    if s != [] {
      var t := "0" + s;
      assert t[..|t| - 1] == "0" + s[..|s| - 1];
      LeadingZeroIgnored(s[..|s| - 1]);
    }
  }

  lemma {:induction false} LeadingZerosIgnored(k: nat, s: string)
    requires AllDigits(s)
    ensures DecimalValue(Zeros(k) + s) == DecimalValue(s)
  {
    if k > 0 {
      assert Zeros(k) + s == "0" + (Zeros(k - 1) + s);
      LeadingZerosIgnored(k - 1, s);
      LeadingZeroIgnored(Zeros(k - 1) + s);
    } else {
      assert Zeros(k) + s == s;
    }
  }

  /** The padded form reads back as the number and has at least four digits. */
  lemma Pad4RoundTrip(n: nat)
    ensures DecimalValue(Pad4(n)) == n
    ensures |Pad4(n)| == if |NatToString(n)| < 4 then 4 else |NatToString(n)|
  {
    var digits := NatToString(n);
    NatToStringRoundTrip(n);
    if |digits| < 4 {
      LeadingZerosIgnored(4 - |digits|, digits);
    }
  }

  /** Distinct sequence numbers have distinct padded forms. */
  lemma Pad4Injective(a: nat, b: nat)
    requires Pad4(a) == Pad4(b)
    ensures a == b
  {
    Pad4RoundTrip(a);
    Pad4RoundTrip(b);
  }
}

=== FILE: codegen.dfy ===
/**
 * The member code generator (genererCodeUnique): "M-", the upper-cased
 * initials of first and last name, "-", the year without its first two
 * digits, and then the number of stored codes starting with that prefix
 * plus one, zero-padded to four digits.
 */
module CodeGenerator {
  import opened Wrappers
  import opened Domain
  import opened Errors
  import opened CodeFormat
  import opened Entity

  /** The prefix the count is taken over: "M-" + initials + "-" + yy. */
  function CodePrefix(nom: string, prenom: string, year: nat): string
    requires |nom| > 0 && |prenom| > 0 && year >= 10
  {
    "M-" + [AsciiUpper(prenom[0]), AsciiUpper(nom[0])] + "-" + NatToString(year)[2..]
  }

  /** The stored rows whose code starts with the prefix (the query code LIKE 'prefix%'). */
  function RowsWithCodePrefix(rows: Table, prefix: string): set<Uuid> {
    set x | x in rows && rows[x].code.Some? && prefix <= rows[x].code.value
  }

  function CountCodePrefix(rows: Table, prefix: string): nat {
    |RowsWithCodePrefix(rows, prefix)|
  }

  /**
   * genererCodeUnique(nom, prenom) with the current year. A null name is a
   * null dereference, an empty one an out-of-range substring, and a year
   * written with fewer than two digits an out-of-range substring too.
   */
  function GenererCodeUnique(rows: Table, nom: Option<string>, prenom: Option<string>, year: nat): (r: Result<string, Error>)
    ensures r.Failure? <==> nom.None? || prenom.None? || |nom.value| == 0 || |prenom.value| == 0 || year < 10
    ensures r.Failure? ==> r.error == InternalError
  {
    if nom.None? || prenom.None? || |nom.value| == 0 || |prenom.value| == 0 || |NatToString(year)| < 2 then
      Failure(InternalError)
    else
      var prefix := CodePrefix(nom.value, prenom.value, year);
      Success(prefix + Pad4(CountCodePrefix(rows, prefix) + 1))
  }

  /** Decimal renderings of numbers below 10000 have at most four digits, four from 1000 on. */
  lemma NatToStringShort(n: nat)
    requires n < 10000
    ensures |NatToString(n)| <= 4
    ensures 1000 <= n ==> |NatToString(n)| == 4
  {
    if n >= 10 {
      if n >= 100 {
        if n >= 1000 {
          assert |NatToString(n / 10 / 10 / 10)| == 1;
        } else {
          assert |NatToString(n / 10 / 10)| == 1;
        }
      }
    }
  }

  /** Two decimal digits read back as ten times the first plus the second. */
  lemma TwoDigitsValue(a: nat, b: nat)
    requires a < 10 && b < 10
    ensures DecimalValue([Digit(a), Digit(b)]) == 10 * a + b
  {
    var s := [Digit(a), Digit(b)];
    assert s[..1] == [Digit(a)];
    assert [Digit(a)][..0] == [];
    assert DecimalValue([Digit(a)]) == 10 * DecimalValue([]) + a;
    assert DecimalValue(s) == 10 * DecimalValue(s[..1]) + b;
  }

  /** For a four-digit year, the year part of the prefix is its last two digits. */
  lemma YearPartIsLastTwoDigits(year: nat)
    requires 1000 <= year < 10000
    ensures |NatToString(year)[2..]| == 2
    ensures DecimalValue(NatToString(year)[2..]) == year % 100
  {
    var hi := NatToString(year / 100);
    assert |hi| == 2 by {
      assert year / 100 >= 10;
      assert |NatToString(year / 1000)| == 1;
    }
    assert NatToString(year / 10) == hi + [Digit(year / 10 % 10)];
    assert NatToString(year) == hi + [Digit(year / 10 % 10), Digit(year % 10)];
    assert NatToString(year)[2..] == [Digit(year / 10 % 10), Digit(year % 10)];
    TwoDigitsValue(year / 10 % 10, year % 10);
  }

  /**
   * A generated code is the prefix followed by at least four digits that
   * read back as the number of codes already using the prefix, plus one.
   */
  lemma GeneratedCodeShape(rows: Table, nom: string, prenom: string, year: nat)
    requires |nom| > 0 && |prenom| > 0 && year >= 10
    ensures var code := GenererCodeUnique(rows, Some(nom), Some(prenom), year).value;
            var prefix := CodePrefix(nom, prenom, year);
            && prefix <= code
            && code[..5] == ['M', '-', AsciiUpper(prenom[0]), AsciiUpper(nom[0]), '-']
            && |code| >= |prefix| + 4
            && AllDigits(code[|prefix|..])
            && DecimalValue(code[|prefix|..]) == CountCodePrefix(rows, prefix) + 1
  {
    var prefix := CodePrefix(nom, prenom, year);
    var n := CountCodePrefix(rows, prefix) + 1;
    var pad := Pad4(n);
    var code := prefix + pad;
    assert GenererCodeUnique(rows, Some(nom), Some(prenom), year).value == code;
    assert prefix[..5] == ['M', '-', AsciiUpper(prenom[0]), AsciiUpper(nom[0]), '-'];
    assert code[..5] == prefix[..5];
    assert code[|prefix|..] == pad;
    Pad4RoundTrip(n);
    assert |pad| >= 4;
  }

  /**
   * For a year in 1000..9999 and fewer than 9999 codes already using the
   * prefix, the code is eleven characters long, so it fits the code column.
   */
  lemma GeneratedCodeLength(rows: Table, nom: string, prenom: string, year: nat)
    requires |nom| > 0 && |prenom| > 0 && 1000 <= year < 10000
    requires CountCodePrefix(rows, CodePrefix(nom, prenom, year)) < 9999
    ensures |GenererCodeUnique(rows, Some(nom), Some(prenom), year).value| == 11
  {
    NatToStringShort(year);
    NatToStringShort(CountCodePrefix(rows, CodePrefix(nom, prenom, year)) + 1);
  }

  /** The first code for Jean Dupont in 2025 is M-JD-250001. */
  lemma FirstCodeForJeanDupont(rows: Table)
    requires forall x :: x in rows && rows[x].code.Some? ==> !("M-JD-25" <= rows[x].code.value)
    ensures GenererCodeUnique(rows, Some("Dupont"), Some("Jean"), 2025) == Success("M-JD-250001")
  {
    assert NatToString(2025) == "2025" by {
      assert NatToString(20) == "20";
      assert NatToString(202) == "202";
    }
    assert CodePrefix("Dupont", "Jean", 2025) == "M-JD-25";
    assert RowsWithCodePrefix(rows, "M-JD-25") == {};
    assert Pad4(1) == "0001" by {
      assert NatToString(1) == "1";
      assert Zeros(1) == "0" && Zeros(2) == "00" && Zeros(3) == "000";
    }
    assert CountCodePrefix(rows, "M-JD-25") + 1 == 1;
    assert GenererCodeUnique(rows, Some("Dupont"), Some("Jean"), 2025) == Success("M-JD-25" + Pad4(1));
    assert "M-JD-25" + "0001" == "M-JD-250001";
  }

  /** With one code already on the prefix, Julie Dupont in 2025 gets M-JD-250002. */
  lemma SecondCodeForSameInitials(rows: Table, y: Uuid)
    requires RowsWithCodePrefix(rows, "M-JD-25") == {y}
    ensures GenererCodeUnique(rows, Some("Dupont"), Some("Julie"), 2025) == Success("M-JD-250002")
  {
    assert NatToString(2025) == "2025" by {
      assert NatToString(20) == "20";
      assert NatToString(202) == "202";
    }
    assert CodePrefix("Dupont", "Julie", 2025) == "M-JD-25";
    assert Pad4(2) == "0002" by {
      assert NatToString(2) == "2";
      assert Zeros(1) == "0" && Zeros(2) == "00" && Zeros(3) == "000";
    }
    assert CountCodePrefix(rows, "M-JD-25") + 1 == 2;
    assert GenererCodeUnique(rows, Some("Dupont"), Some("Julie"), 2025) == Success("M-JD-25" + Pad4(2));
    assert "M-JD-25" + "0002" == "M-JD-250002";
  }

  /** Appending to a common prefix is injective. */
  lemma SuffixCancel(prefix: string, a: string, b: string)
    requires prefix + a == prefix + b
    ensures a == b
  {
    assert a == (prefix + a)[|prefix|..];
    assert b == (prefix + b)[|prefix|..];
  }

  /**
   * The generated code is unused as long as every stored code with the
   * prefix carries a sequence number no larger than their count; this
   * holds when no code with the prefix was ever deleted.
   */
  lemma GeneratedCodeFresh(rows: Table, nom: string, prenom: string, year: nat)
    requires |nom| > 0 && |prenom| > 0 && year >= 10
    requires forall x :: x in RowsWithCodePrefix(rows, CodePrefix(nom, prenom, year)) ==>
               exists i: nat :: i <= CountCodePrefix(rows, CodePrefix(nom, prenom, year))
                                && rows[x].code == Some(CodePrefix(nom, prenom, year) + Pad4(i))
    ensures forall x :: x in rows ==> rows[x].code != Some(GenererCodeUnique(rows, Some(nom), Some(prenom), year).value)
  {
    var prefix := CodePrefix(nom, prenom, year);
    var n := CountCodePrefix(rows, prefix);
    forall x | x in rows
      ensures rows[x].code != Some(prefix + Pad4(n + 1))
    {
      if rows[x].code == Some(prefix + Pad4(n + 1)) {
        assert x in RowsWithCodePrefix(rows, prefix);
        var i: nat :| i <= n && rows[x].code == Some(prefix + Pad4(i));
        SuffixCancel(prefix, Pad4(i), Pad4(n + 1));
        Pad4Injective(i, n + 1);
      }
    }
  }

  /**
   * Without that condition the code can repeat: once the first code of a
   * prefix is deleted, a table holding only the second one generates the
   * second one again.
   */
  lemma GeneratedCodeRepeatsAfterDeletion(rows: Table, y: Uuid, nom: string, prenom: string, year: nat)
    requires |nom| > 0 && |prenom| > 0 && year >= 10
    requires rows.Keys == {y} && rows[y].code == Some(CodePrefix(nom, prenom, year) + Pad4(2))
    ensures GenererCodeUnique(rows, Some(nom), Some(prenom), year) == Success(rows[y].code.value)
  {
    var prefix := CodePrefix(nom, prenom, year);
    assert prefix <= prefix + Pad4(2);
    assert RowsWithCodePrefix(rows, prefix) == {y};
  }
}

=== FILE: constraints.dfy ===
/**
 * The Jakarta Bean Validation constraints used on the request and on the
 * entity, as Hibernate Validator evaluates them. Except @NotBlank, each of
 * them accepts null.
 */
module Constraints {
  import opened Wrappers
  import opened Domain

  /** trim() removes every character up to U+0020, so blank means nothing above it. */
  predicate IsBlank(s: string) {
    forall i :: 0 <= i < |s| ==> s[i] <= ' '
  }

  /** @NotBlank: not null and not blank. */
  predicate NotBlank(s: Option<string>) {
    s.Some? && !IsBlank(s.value)
  }

  /** @Size(min, max), measured in characters. */
  predicate SizeBetween(s: Option<string>, min: nat, max: nat) {
    s.None? || min <= |s.value| <= max
  }

  /** @Size(max) alone (and a column's length). */
  predicate SizeAtMost(s: Option<string>, max: nat) {
    SizeBetween(s, 0, max)
  }

  /**
   * @Email: the empty string is accepted; otherwise the last '@' splits a
   * non-empty local part of at most 64 characters from a non-empty domain.
   */
  predicate EmailAddress(s: string) {
    |s| == 0 ||
    exists i :: 0 < i < |s| - 1 && s[i] == '@' && i <= 64 && '@' !in s[i + 1..]
  }

  predicate EmailFormat(s: Option<string>) {
    s.None? || EmailAddress(s.value)
  }

  /** @Past: strictly before the day of validation. */
  predicate PastDate(d: Option<Date>, today: Date) {
    d.None? || d.value < today
  }
}

=== FILE: domain.dfy ===
/**
 * The domain record of a member (Membre) and its status (StatutMembre),
 * with the two derived predicates the rest of the system relies on:
 * "en regle" (in good standing) and the full name.
 */
module Domain {
  import opened Wrappers

  /** Identifiers (java.util.UUID); only equality matters. */
  type Uuid = nat
  /** A calendar day (java.time.LocalDate), counted from an arbitrary origin. */
  type Date = int
  /** An instant (java.time.LocalDateTime), counted from an arbitrary origin. */
  type Timestamp = int
  /** Photo bytes, treated as opaque. */
  type Photo = seq<bv8>

  /** The four membership states; any state may follow any other. */
  datatype StatutMembre = Actif | Inactif | Suspendu | Radie

  /**
   * A member as the application layer sees it. Every reference-typed field of
   * the Java class may be null (None); `actif` is a primitive boolean. The
   * sponsor is the sponsor's own record, with its own sponsor in turn.
   */
  datatype Membre = Membre(
    id: Option<Uuid>,
    code: Option<string>,
    nom: Option<string>,
    prenom: Option<string>,
    email: Option<string>,
    telephone: Option<string>,
    dateNaissance: Option<Date>,
    adresse: Option<string>,
    profession: Option<string>,
    photo: Option<Photo>,
    photoUrl: Option<string>,
    statut: Option<StatutMembre>,
    dateAdhesion: Option<Date>,
    dateModification: Option<Timestamp>,
    parrain: Option<Membre>,
    actif: bool)
  {
    /** In good standing: the active flag is set and the status is ACTIF. */
    predicate EstEnRegle() {
      actif && statut == Some(Actif)
    }

    /**
     * First name, a space, last name. Java string concatenation renders a
     * null operand as the four characters "null".
     */
    function NomComplet(): (s: string)
      ensures |s| == |JavaString(prenom)| + 1 + |JavaString(nom)|
      ensures s[..|JavaString(prenom)|] == JavaString(prenom)
      ensures s[|JavaString(prenom)|] == ' '
      ensures s[|JavaString(prenom)| + 1..] == JavaString(nom)
    {
      JavaString(prenom) + " " + JavaString(nom)
    }

    /** Stamps the modification time; no other field changes. */
    function MettreAJourDateModification(now: Timestamp): (m: Membre)
      ensures m.dateModification == Some(now)
      ensures m.(dateModification := dateModification) == this
    {
      this.(dateModification := Some(now))
    }
  }

  /** How Java's string concatenation renders a possibly-null string. */
  function JavaString(s: Option<string>): string
  {
    if s.None? then "null" else s.value
  }

  /** Every status other than ACTIF rules good standing out, whatever the flag says. */
  lemma NonActifNeverEnRegle(m: Membre, s: StatutMembre, actif: bool)
    requires s != Actif
    ensures !m.(statut := Some(s), actif := actif).EstEnRegle()
  {
  }

  /** Good standing depends on the status and the active flag and on nothing else. */
  lemma EstEnRegleDependsOnStatutAndActif(m1: Membre, m2: Membre)
    requires m1.statut == m2.statut && m1.actif == m2.actif
    ensures m1.EstEnRegle() == m2.EstEnRegle()
  {
  }
}

=== FILE: entity.dfy ===
/**
 * The stored form of a member (MembreEntity, table "membre") and the
 * constraints the store keeps on its rows: column constraints, the unique
 * keys on code and email, the primary key, the foreign key from a row to
 * its sponsor, and the absence of sponsor cycles. prePersist and preUpdate
 * are the two lifecycle hooks.
 */
module Entity {
  import opened Wrappers
  import opened Domain
  import opened Constraints

  /** A row; the sponsor is held as the sponsor row's id (column id_parrain). */
  datatype MembreEntity = MembreEntity(
    id: Option<Uuid>,
    code: Option<string>,
    nom: Option<string>,
    prenom: Option<string>,
    email: Option<string>,
    telephone: Option<string>,
    dateNaissance: Option<Date>,
    adresse: Option<string>,
    profession: Option<string>,
    photo: Option<Photo>,
    photoUrl: Option<string>,
    statut: Option<StatutMembre>,
    dateAdhesion: Option<Date>,
    dateModification: Option<Timestamp>,
    parrain: Option<Uuid>,
    actif: bool)

  /**
   * The column constraints that do not depend on the day: bean validation
   * on the fields, NOT NULL columns, and column lengths (255 where the
   * mapping gives none).
   */
  predicate ColumnsValid(e: MembreEntity) {
    && NotBlank(e.code) && SizeBetween(e.code, 2, 50)
    && NotBlank(e.nom) && SizeBetween(e.nom, 2, 100)
    && NotBlank(e.prenom) && SizeBetween(e.prenom, 2, 100)
    && EmailFormat(e.email) && SizeAtMost(e.email, 150)
    && SizeAtMost(e.telephone, 20)
    && SizeAtMost(e.adresse, 255)
    && SizeAtMost(e.profession, 100)
    && SizeAtMost(e.photoUrl, 255)
    && e.statut.Some?
    && e.dateAdhesion.Some?
  }

  /** Everything bean validation checks when the row is written on day `today`. */
  predicate ValidAt(e: MembreEntity, today: Date) {
    ColumnsValid(e) && PastDate(e.dateNaissance, today)
  }

  /** The table, keyed by primary key. */
  type Table = map<Uuid, MembreEntity>

  /**
   * Each row is stored under its own id and names as sponsor only a stored
   * row (foreign key on id_parrain).
   */
  predicate RowsWellFormed(rows: Table) {
    forall x {:trigger rows[x]} :: x in rows ==>
      && rows[x].id == Some(x)
      && (rows[x].parrain.Some? ==> rows[x].parrain.value in rows)
  }

  /** Every row satisfies its column constraints. */
  predicate ColumnsHold(rows: Table) {
    forall x {:trigger rows[x]} :: x in rows ==> ColumnsValid(rows[x])
  }

  /** Unique key uk_membre_code. */
  predicate UniqueCodes(rows: Table) {
    forall x, y :: x in rows && y in rows && x != y ==> rows[x].code != rows[y].code
  }

  /** Unique key uk_membre_email: NULLs never collide, the empty string does. */
  predicate UniqueEmails(rows: Table) {
    forall x, y :: x in rows && y in rows && x != y && rows[x].email.Some? ==> rows[x].email != rows[y].email
  }

  /** The sponsor id of row y, if y is stored and has one. */
  function Parent(rows: Table, y: Uuid): Option<Uuid> {
    if y in rows then rows[y].parrain else None
  }

  /** Where k steps along the sponsor chain from y lead, if the chain is that long. */
  function Walk(rows: Table, y: Uuid, k: nat): Option<Uuid>
    decreases k
  {
    if k == 0 then Some(y)
    else match Parent(rows, y)
      case None => None
      case Some(p) => Walk(rows, p, k - 1)
  }

  /** No member is its own sponsor, directly or through others. */
  ghost predicate Acyclic(rows: Table) {
    forall y: Uuid, k: nat :: 0 < k ==> Walk(rows, y, k) != Some(y)
  }

  /** The invariant of the stored table. */
  ghost predicate TableValid(rows: Table) {
    RowsWellFormed(rows) && ColumnsHold(rows) && UniqueCodes(rows) && UniqueEmails(rows) && Acyclic(rows)
  }

  /** @PrePersist: default the join date to today, stamp the modification time. */
  function PrePersist(e: MembreEntity, today: Date, now: Timestamp): (r: MembreEntity)
    ensures r.dateAdhesion == if e.dateAdhesion.None? then Some(today) else e.dateAdhesion
    ensures r.dateModification == Some(now)
    ensures r.(dateAdhesion := e.dateAdhesion, dateModification := e.dateModification) == e
  {
    e.(dateAdhesion := if e.dateAdhesion.None? then Some(today) else e.dateAdhesion,
       dateModification := Some(now))
  }

  /** @PreUpdate: stamp the modification time, nothing else. */
  function PreUpdate(e: MembreEntity, now: Timestamp): (r: MembreEntity)
    ensures r.dateModification == Some(now)
    ensures r.(dateModification := e.dateModification) == e
  {
    e.(dateModification := Some(now))
  }

  /** The hooks touch only dates: the column constraints are unaffected. */
  lemma HooksKeepColumns(e: MembreEntity, today: Date, now: Timestamp)
    ensures ColumnsValid(PreUpdate(e, now)) == ColumnsValid(e)
    ensures e.dateAdhesion.Some? ==> ColumnsValid(PrePersist(e, today, now)) == ColumnsValid(e)
  {
  }

  /** One more step past the end of a walk follows the last sponsor link. */
  lemma {:induction false} WalkExtend(rows: Table, v: Uuid, j: nat, y: Uuid, p: Uuid)
    requires Walk(rows, v, j) == Some(y) && Parent(rows, y) == Some(p)
    ensures Walk(rows, v, j + 1) == Some(p)
    decreases j
  {
    if j > 0 {
      var q := Parent(rows, v).value;
      WalkExtend(rows, q, j - 1, y, p);
    }
  }

  /** Walking i + j steps is walking i steps, then j from there. */
  lemma {:induction false} WalkAdd(rows: Table, y: Uuid, i: nat, j: nat)
    ensures Walk(rows, y, i + j) == match Walk(rows, y, i)
                                    case None => None
                                    case Some(z) => Walk(rows, z, j)
    decreases i
  {
    if i > 0 && Parent(rows, y).Some? {
      WalkAdd(rows, Parent(rows, y).value, i - 1, j);
    }
  }

  /**
   * Two tables that give every row but x the same sponsor have the same
   * walks, as long as the walk does not pass through x.
   */
  lemma {:induction false} WalkAgree(a: Table, b: Table, x: Uuid, y: Uuid, k: nat)
    requires forall z :: z != x ==> Parent(a, z) == Parent(b, z)
    requires forall i :: 0 <= i < k ==> Walk(a, y, i) != Some(x)
    ensures Walk(a, y, k) == Walk(b, y, k)
    decreases k
  {
    if k > 0 {
      assert Walk(a, y, 0) == Some(y);
      if Parent(a, y).Some? {
        var p := Parent(a, y).value;
        forall i | 0 <= i < k - 1
          ensures Walk(a, p, i) != Some(x)
        {
          assert Walk(a, y, i + 1) == Walk(a, p, i);
        }
        WalkAgree(a, b, x, p, k - 1);
      }
    }
  }

  /** A row nobody names as sponsor is never reached by a walk of one step or more. */
  lemma {:induction false} UnreferencedNeverReached(rows: Table, x: Uuid, y: Uuid, k: nat)
    requires forall z :: Parent(rows, z) != Some(x)
    requires 0 < k
    ensures Walk(rows, y, k) != Some(x)
    decreases k
  {
    if k > 1 && Parent(rows, y).Some? {
      UnreferencedNeverReached(rows, x, Parent(rows, y).value, k - 1);
    }
  }

  /**
   * Changing the sponsor of row x alone keeps the table free of cycles as
   * long as x does not lead back to itself: a new cycle would have to pass
   * through x.
   */
  lemma AcyclicAfterWrite(old_rows: Table, rows: Table, x: Uuid)
    requires Acyclic(old_rows)
    requires forall z :: z != x ==> Parent(rows, z) == Parent(old_rows, z)
    requires forall k: nat :: 0 < k ==> Walk(rows, x, k) != Some(x)
    ensures Acyclic(rows)
  {
    forall y: Uuid, k: nat | 0 < k
      ensures Walk(rows, y, k) != Some(y)
    {
      if i :| 0 <= i < k && Walk(rows, y, i) == Some(x) {
        // y reaches x after i steps; were y to reach itself after k, x would too.
        WalkAdd(rows, y, i, k);
        WalkAdd(rows, y, k, i);
      } else {
        WalkAgree(rows, old_rows, x, y, k);
      }
    }
  }

  /** Storing a new row whose sponsor is stored keeps the table free of cycles. */
  lemma AcyclicAfterInsert(old_rows: Table, x: Uuid, row: MembreEntity)
    requires RowsWellFormed(old_rows) && Acyclic(old_rows)
    requires x !in old_rows
    requires row.parrain.Some? ==> row.parrain.value in old_rows
    ensures Acyclic(old_rows[x := row])
  {
    var rows := old_rows[x := row];
    forall z ensures Parent(rows, z) != Some(x) {
    }
    forall k: nat | 0 < k ensures Walk(rows, x, k) != Some(x) {
      UnreferencedNeverReached(rows, x, x, k);
    }
    AcyclicAfterWrite(old_rows, rows, x);
  }

  /** Removing a row nobody names as sponsor keeps the table free of cycles. */
  lemma AcyclicAfterDelete(old_rows: Table, x: Uuid)
    requires Acyclic(old_rows)
    requires forall z :: Parent(old_rows, z) != Some(x)
    ensures Acyclic(old_rows - {x})
  {
    var rows := old_rows - {x};
    forall y: Uuid, k: nat | 0 < k
      ensures Walk(rows, y, k) != Some(y)
    {
      if y == x {
        assert Parent(rows, x) == None;
      } else {
        forall i | 0 <= i < k ensures Walk(old_rows, y, i) != Some(x) {
          if i > 0 {
            UnreferencedNeverReached(old_rows, x, y, i);
          }
        }
        WalkAgree(old_rows, rows, x, y, k);
      }
    }
  }
}

=== FILE: errors.dfy ===
/** The exceptions the member core can raise, as values. */
module Errors {
  import opened Domain

  datatype Error =
    /** NotFoundException: no member with this identifier. */
    | NotFound(id: Uuid)
    /** NotFoundException: the requested sponsor does not exist. */
    | SponsorNotFound(id: Uuid)
    /** EmailDejaUtiliseException: the address belongs to a stored member. */
    | EmailDejaUtilise(email: string)
    /** The flush was refused: bean validation, a unique, primary or foreign key. */
    | ConstraintViolation
    /** A runtime failure: null dereference, index out of bounds, stack overflow. */
    | InternalError
}

=== FILE: mapper.dfy ===
/**
 * The hand-written mapper between the request, the domain member, the
 * stored row and the response (MembreMapperImpl).
 */
module Mapper {
  import opened Wrappers
  import opened Domain
  import opened Constraints
  import opened Requests
  import opened Entity

  /** The member as the API returns it, with the derived fields filled in. */
  datatype MembreResponse = MembreResponse(
    id: Option<Uuid>,
    code: Option<string>,
    nom: Option<string>,
    prenom: Option<string>,
    nomComplet: string,
    email: Option<string>,
    telephone: Option<string>,
    dateNaissance: Option<Date>,
    adresse: Option<string>,
    profession: Option<string>,
    photoUrl: Option<string>,
    statut: Option<StatutMembre>,
    dateAdhesion: Option<Date>,
    dateModification: Option<Timestamp>,
    idParrain: Option<Uuid>,
    nomParrain: Option<string>,
    actif: bool,
    enRegle: bool)

  /** A member and a row agree on every field they share except id and sponsor. */
  predicate SameData(m: Membre, e: MembreEntity) {
    && m.code == e.code && m.nom == e.nom && m.prenom == e.prenom
    && m.email == e.email && m.telephone == e.telephone
    && m.dateNaissance == e.dateNaissance && m.adresse == e.adresse
    && m.profession == e.profession && m.photo == e.photo && m.photoUrl == e.photoUrl
    && m.statut == e.statut && m.dateAdhesion == e.dateAdhesion
    && m.dateModification == e.dateModification && m.actif == e.actif
  }

  /** toEntity: copies the data fields; the id and the sponsor are not copied. */
  function ToEntity(m: Membre): (e: MembreEntity)
    ensures SameData(m, e)
    ensures e.id.None? && e.parrain.None?
  {
    MembreEntity(None, m.code, m.nom, m.prenom, m.email, m.telephone, m.dateNaissance,
                 m.adresse, m.profession, m.photo, m.photoUrl, m.statut, m.dateAdhesion,
                 m.dateModification, None, m.actif)
  }

  /**
   * entityToDomaine: copies every field, id included, and converts the
   * sponsor row recursively, following its own sponsor in turn. The Java
   * recursion has no bound; here `visited` holds the rows already on the
   * chain, and meeting one of them again, where the Java code would recurse
   * until its stack overflows, gives None. A sponsor id that is not stored
   * (which the foreign key rules out) also gives None.
   */
  function EntityToDomaine(rows: Table, e: MembreEntity, visited: set<Uuid>): (r: Option<Membre>)
    ensures r.Some? ==> SameData(r.value, e) && r.value.id == e.id
    ensures r.Some? ==> (r.value.parrain.Some? <==> e.parrain.Some?)
    ensures r.Some? && e.parrain.Some? ==>
              && e.parrain.value in rows
              && r.value.parrain.value.id == rows[e.parrain.value].id
              && SameData(r.value.parrain.value, rows[e.parrain.value])
    decreases rows.Keys - visited
  {
    var m := Membre(e.id, e.code, e.nom, e.prenom, e.email, e.telephone, e.dateNaissance,
                    e.adresse, e.profession, e.photo, e.photoUrl, e.statut, e.dateAdhesion,
                    e.dateModification, None, e.actif);
    match e.parrain
    case None => Some(m)
    case Some(p) =>
      if p !in rows || p in visited then None
      else
        match EntityToDomaine(rows, rows[p], visited + {p})
        case None => None
        case Some(sponsor) => Some(m.(parrain := Some(sponsor)))
  }

  /**
   * requestToDomaine: the eight data fields of the request, status ACTIF,
   * the active flag set and today as join date; id, code, photo, sponsor
   * and modification time are left null.
   */
  function RequestToDomaine(request: CreationMembreRequest, today: Date): (m: Membre)
    ensures m.nom == request.nom && m.prenom == request.prenom && m.email == request.email
    ensures m.telephone == request.telephone && m.dateNaissance == request.dateNaissance
    ensures m.adresse == request.adresse && m.profession == request.profession
    ensures m.photoUrl == request.photoUrl
    ensures m.statut == Some(Actif) && m.actif && m.dateAdhesion == Some(today)
    ensures m.id.None? && m.code.None? && m.photo.None? && m.parrain.None? && m.dateModification.None?
    ensures m.EstEnRegle()
  {
    Membre(None, None, request.nom, request.prenom, request.email, request.telephone,
           request.dateNaissance, request.adresse, request.profession, None, request.photoUrl,
           Some(Actif), Some(today), None, None, true)
  }

  /**
   * toResponse: the member's fields, its full name and good standing, and,
   * exactly when it has a sponsor, that sponsor's id and full name.
   */
  function ToResponse(m: Membre): (r: MembreResponse)
    ensures r.nomComplet == m.NomComplet() && r.enRegle == m.EstEnRegle()
    ensures r.nomParrain.Some? <==> m.parrain.Some?
    ensures m.parrain.Some? ==> r.idParrain == m.parrain.value.id && r.nomParrain == Some(m.parrain.value.NomComplet())
    ensures m.parrain.None? ==> r.idParrain.None?
  {
    MembreResponse(
      m.id, m.code, m.nom, m.prenom, m.NomComplet(), m.email, m.telephone, m.dateNaissance,
      m.adresse, m.profession, m.photoUrl, m.statut, m.dateAdhesion, m.dateModification,
      if m.parrain.Some? then m.parrain.value.id else None,
      if m.parrain.Some? then Some(m.parrain.value.NomComplet()) else None,
      m.actif, m.EstEnRegle())
  }

  /** toResponseList: one response per member, in the same order; null gives null. */
  method ToResponseList(membres: Option<seq<Membre>>) returns (r: Option<seq<MembreResponse>>)
    ensures membres.None? <==> r.None?
    ensures membres.Some? ==> |r.value| == |membres.value|
    ensures membres.Some? ==> forall i :: 0 <= i < |membres.value| ==> r.value[i] == ToResponse(membres.value[i])
  {
    if membres.None? {
      return None;
    }
    var list: seq<MembreResponse> := [];
    for i := 0 to |membres.value|
      invariant |list| == i
      invariant forall j :: 0 <= j < i ==> list[j] == ToResponse(membres.value[j])
    {
      list := list + [ToResponse(membres.value[i])];
    }
    return Some(list);
  }

  /**
   * updateMembreFromRequest: overwrites the eight data fields with the
   * request's, null included; every other field is kept. A null request
   * changes nothing.
   */
  function UpdateMembreFromRequest(request: Option<CreationMembreRequest>, m: Membre): (r: Membre)
    ensures request.None? ==> r == m
    ensures request.Some? ==>
              && r.nom == request.value.nom && r.prenom == request.value.prenom
              && r.email == request.value.email && r.telephone == request.value.telephone
              && r.dateNaissance == request.value.dateNaissance && r.adresse == request.value.adresse
              && r.profession == request.value.profession && r.photoUrl == request.value.photoUrl
    ensures r.id == m.id && r.code == m.code && r.statut == m.statut && r.dateAdhesion == m.dateAdhesion
    ensures r.actif == m.actif && r.photo == m.photo && r.parrain == m.parrain
    ensures r.dateModification == m.dateModification
  {
    match request
    case None => m
    case Some(q) =>
      m.(nom := q.nom, prenom := q.prenom, email := q.email, telephone := q.telephone,
         dateNaissance := q.dateNaissance, adresse := q.adresse, profession := q.profession,
         photoUrl := q.photoUrl)
  }

  /** Converting a member to a row and back restores it, except for its id and its sponsor. */
  lemma EntityRoundTrip(rows: Table, m: Membre, visited: set<Uuid>)
    ensures EntityToDomaine(rows, ToEntity(m), visited) == Some(m.(id := None, parrain := None))
  {
  }

  /** Applying the same request twice is applying it once. */
  lemma UpdateIdempotent(request: Option<CreationMembreRequest>, m: Membre)
    ensures UpdateMembreFromRequest(request, UpdateMembreFromRequest(request, m)) == UpdateMembreFromRequest(request, m)
  {
  }

  /** An update from a request never changes good standing. */
  lemma UpdateKeepsStanding(request: Option<CreationMembreRequest>, m: Membre)
    ensures UpdateMembreFromRequest(request, m).EstEnRegle() == m.EstEnRegle()
  {
  }

  /**
   * The response keeps everything but the photo and the sponsor's other
   * fields: two sponsor-less members with the same photo and the same
   * response are the same member.
   */
  lemma ToResponseLosesOnlyPhotoAndSponsor(m1: Membre, m2: Membre)
    requires m1.parrain.None? && m2.parrain.None? && m1.photo == m2.photo
    requires ToResponse(m1) == ToResponse(m2)
    ensures m1 == m2
  {
  }

  /**
   * The entity stored for a member built from a valid request satisfies
   * every column constraint, once its code is set and provided the two
   * columns the request leaves unbounded fit their 255 characters.
   */
  lemma ValidRequestGivesValidRow(request: CreationMembreRequest, today: Date, now: Timestamp, code: string)
    requires Valid(request, today)
    requires SizeAtMost(request.adresse, 255) && SizeAtMost(request.photoUrl, 255)
    requires NotBlank(Some(code)) && 2 <= |code| <= 50
    ensures ValidAt(PrePersist(ToEntity(RequestToDomaine(request, today)).(code := Some(code)), today, now), today)
  {
  }

  /** Rows reached from the sponsor are never rows already visited: the chain never turns back. */
  lemma {:induction false} EntityToDomaineNoRevisit(rows: Table, e: MembreEntity, visited: set<Uuid>, k: nat)
    requires EntityToDomaine(rows, e, visited).Some? && e.parrain.Some?
    ensures Walk(rows, e.parrain.value, k).None? || Walk(rows, e.parrain.value, k).value !in visited
    decreases k
  {
    var p := e.parrain.value;
    if k > 0 && rows[p].parrain.Some? {
      EntityToDomaineNoRevisit(rows, rows[p], visited + {p}, k - 1);
    }
  }

  /** A row that converts successfully does not lead back to itself. */
  lemma ConvertedRowLeadsNotBack(rows: Table, x: Uuid)
    requires x in rows && EntityToDomaine(rows, rows[x], {x}).Some?
    ensures forall k: nat :: 0 < k ==> Walk(rows, x, k) != Some(x)
  {
    forall k: nat | 0 < k ensures Walk(rows, x, k) != Some(x) {
      if rows[x].parrain.Some? {
        EntityToDomaineNoRevisit(rows, rows[x], {x}, k - 1);
      }
    }
  }

  /** v reaches y in one step or more along the sponsor chain. */
  ghost predicate Reaches(rows: Table, v: Uuid, y: Uuid) {
    exists j: nat :: 0 < j && Walk(rows, v, j) == Some(y)
  }

  /**
   * On a table without sponsor cycles and with its foreign key in place the
   * conversion always succeeds, as long as every row already visited leads
   * to the next sponsor.
   */
  lemma {:induction false} EntityToDomaineTotal(rows: Table, e: MembreEntity, visited: set<Uuid>)
    requires RowsWellFormed(rows) && Acyclic(rows)
    requires e.parrain.Some? ==> e.parrain.value in rows
    requires e.parrain.Some? ==> forall v :: v in visited ==> Reaches(rows, v, e.parrain.value)
    ensures EntityToDomaine(rows, e, visited).Some?
    decreases rows.Keys - visited
  {
    if e.parrain.Some? {
      var p := e.parrain.value;
      assert p !in visited;
      var next := rows[p];
      if next.parrain.Some? {
        var q := next.parrain.value;
        forall v | v in visited + {p} ensures Reaches(rows, v, q) {
          if v == p {
            assert Walk(rows, p, 1) == Some(q);
          } else {
            var j: nat :| 0 < j && Walk(rows, v, j) == Some(p);
            WalkExtend(rows, v, j, p, q);
          }
        }
      }
      EntityToDomaineTotal(rows, next, visited + {p});
    }
  }

  /** Every stored row of a valid table converts. */
  lemma StoredRowConverts(rows: Table, x: Uuid)
    requires TableValid(rows) && x in rows
    ensures EntityToDomaine(rows, rows[x], {x}).Some?
  {
    if rows[x].parrain.Some? {
      assert Walk(rows, x, 1) == rows[x].parrain;
    }
    EntityToDomaineTotal(rows, rows[x], {x});
  }
}

=== FILE: repository.dfy ===
/**
 * The member repository (MembreRepositoryImpl): the table of stored rows,
 * the queries over it, the insert-or-update sauvegarder with what its flush
 * accepts, and supprimer.
 */
module Repository {
  import opened Wrappers
  import opened Domain
  import opened Errors
  import opened Constraints
  import opened Entity
  import opened Mapper
  import opened CodeFormat
  import opened CodeGenerator

  /**
   * What one call reads from its environment: today's date, the current
   * time, the current year, and the identifier the UUID generator hands out.
   */
  datatype Env = Env(today: Date, now: Timestamp, year: nat, newId: Uuid)

  /** What a successful save leaves: the new table and the member read back from the written row. */
  datatype Saved = Saved(rows: Table, membre: Membre)

  // ---------------------------------------------------------------- queries

  /** chercherParId: the stored row converted to a member, if there is one. */
  function ChercherParId(rows: Table, id: Uuid): (r: Option<Membre>)
    ensures r.Some? ==> id in rows && r.value.id == rows[id].id && SameData(r.value, rows[id])
    ensures id !in rows ==> r.None?
  {
    if id in rows then EntityToDomaine(rows, rows[id], {id}) else None
  }

  /** m is no larger than any element of s. */
  predicate LowerBound(s: set<Uuid>, m: Uuid) {
    forall y :: y in s ==> m <= y
  }

  lemma {:induction false} HasLeast(s: set<Uuid>)
    requires s != {}
    ensures exists x :: x in s && LowerBound(s, x)
    decreases |s|
  {
    var z :| z in s;
    var rest := s - {z};
    if rest == {} {
      assert s == {z};
      assert LowerBound(s, z);
    } else {
      HasLeast(rest);
      var x :| x in rest && LowerBound(rest, x);
      assert s == rest + {z};
      if z < x {
        assert LowerBound(s, z);
      } else {
        assert LowerBound(s, x);
      }
    }
  }

  /** The lowest identifier of a non-empty set. */
  function Least(s: set<Uuid>): (x: Uuid)
    requires s != {}
    ensures x in s && LowerBound(s, x)
  {
    HasLeast(s);
    var x :| x in s && LowerBound(s, x); x
  }

  /**
   * firstResultOptional over the rows `matches`: the query fixes no order,
   * so the model takes the row of lowest identifier.
   */
  function FirstResult(rows: Table, matches: set<Uuid>): (r: Option<Membre>)
    requires matches <= rows.Keys
    ensures matches == {} ==> r.None?
    ensures r.Some? ==> exists x :: x in matches && Some(r.value) == ChercherParId(rows, x)
  {
    if matches == {} then None
    else
      var x := Least(matches);
      ChercherParId(rows, x)
  }

  function CodeMatches(rows: Table, code: string): set<Uuid> {
    set x | x in rows && rows[x].code == Some(code)
  }

  function EmailMatches(rows: Table, email: string): set<Uuid> {
    set x | x in rows && rows[x].email == Some(email)
  }

  /** chercherParCode: a member whose code is `code`. */
  function ChercherParCode(rows: Table, code: string): (r: Option<Membre>)
    ensures r.Some? ==> r.value.code == Some(code)
  {
    FirstResult(rows, CodeMatches(rows, code))
  }

  /** chercherParEmail: a member whose email is `email`. */
  function ChercherParEmail(rows: Table, email: string): (r: Option<Membre>)
    ensures r.Some? ==> r.value.email == Some(email)
  {
    FirstResult(rows, EmailMatches(rows, email))
  }

  /** emailExiste: the count of rows with this email is positive. */
  function EmailExiste(rows: Table, email: string): (b: bool)
    ensures b <==> exists x :: x in rows && rows[x].email == Some(email)
  {
    var matches := EmailMatches(rows, email);
    if |matches| > 0 then true
    else
      assert forall x :: x in rows && rows[x].email == Some(email) ==> x in matches;
      false
  }

  /** On a valid table every stored row can be looked up. */
  lemma ChercherParIdFindsStored(rows: Table, id: Uuid)
    requires TableValid(rows)
    ensures ChercherParId(rows, id).Some? <==> id in rows
    ensures id in rows ==> ChercherParId(rows, id).value.id == Some(id)
  {
    if id in rows {
      StoredRowConverts(rows, id);
    }
  }

  /** On a valid table the lookup by code finds the one row holding it, and only it. */
  lemma ChercherParCodeFindsRow(rows: Table, code: string, x: Uuid)
    requires TableValid(rows) && x in rows && rows[x].code == Some(code)
    ensures ChercherParCode(rows, code) == ChercherParId(rows, x)
    ensures ChercherParCode(rows, code).Some?
  {
    assert CodeMatches(rows, code) == {x};
    ChercherParIdFindsStored(rows, x);
  }

  /** On a valid table the lookup by email finds the one row holding it, and only it. */
  lemma ChercherParEmailFindsRow(rows: Table, email: string, x: Uuid)
    requires TableValid(rows) && x in rows && rows[x].email == Some(email)
    ensures ChercherParEmail(rows, email) == ChercherParId(rows, x)
    ensures ChercherParEmail(rows, email).Some?
  {
    assert EmailMatches(rows, email) == {x};
    ChercherParIdFindsStored(rows, x);
  }

  /** On a valid table an email exists exactly when the lookup by email finds a member. */
  lemma EmailExisteIffFound(rows: Table, email: string)
    requires TableValid(rows)
    ensures EmailExiste(rows, email) <==> ChercherParEmail(rows, email).Some?
  {
    if EmailExiste(rows, email) {
      var x :| x in rows && rows[x].email == Some(email);
      ChercherParEmailFindsRow(rows, email, x);
    }
  }

  /** m is the member read back from one of the rows `keys`. */
  predicate Listed(rows: Table, keys: set<Uuid>, m: Membre) {
    m.id.Some? && m.id.value in keys && ChercherParId(rows, m.id.value) == Some(m)
  }

  /** Every stored row reads back as a member carrying its id. */
  predicate AllReadable(rows: Table) {
    forall x {:trigger ChercherParId(rows, x)} :: x in rows ==> ChercherParId(rows, x).Some? && ChercherParId(rows, x).value.id == Some(x)
  }

  lemma ValidTableReadable(rows: Table)
    requires TableValid(rows)
    ensures AllReadable(rows)
  {
    forall x | x in rows
      ensures ChercherParId(rows, x).Some? && ChercherParId(rows, x).value.id == Some(x)
    {
      ChercherParIdFindsStored(rows, x);
    }
  }

  /** The rows `keys` converted to members, each exactly once, in no particular order. */
  method ConvertRows(rows: Table, keys: set<Uuid>) returns (r: seq<Membre>)
    requires AllReadable(rows) && keys <= rows.Keys
    ensures |r| == |keys|
    ensures forall i :: 0 <= i < |r| ==> Listed(rows, keys, r[i])
    ensures forall i, j :: 0 <= i < j < |r| ==> r[i].id != r[j].id
    ensures forall x :: x in keys ==> exists i :: 0 <= i < |r| && r[i].id == Some(x)
  {
    var remaining := keys;
    ghost var ids: seq<Uuid> := [];
    r := [];
    while remaining != {}
      invariant remaining <= keys
      invariant |ids| == |r| && |r| + |remaining| == |keys|
      invariant forall i :: 0 <= i < |ids| ==> ids[i] in keys && ids[i] !in remaining && ChercherParId(rows, ids[i]) == Some(r[i])
      invariant forall i, j :: 0 <= i < j < |ids| ==> ids[i] != ids[j]
      invariant forall x :: x in keys && x !in remaining ==> x in ids
      decreases |remaining|
    {
      var x :| x in remaining;
      r := r + [ChercherParId(rows, x).value];
      ids := ids + [x];
      remaining := remaining - {x};
    }
    forall i | 0 <= i < |r| ensures r[i].id == Some(ids[i]) && Listed(rows, keys, r[i]) {
      assert ChercherParId(rows, ids[i]) == Some(r[i]);
    }
    forall x | x in keys ensures exists i :: 0 <= i < |r| && r[i].id == Some(x) {
      var i :| 0 <= i < |ids| && ids[i] == x;
      assert r[i].id == Some(x);
    }
  }

  /** listerTous: every stored member, each exactly once. */
  method ListerTous(rows: Table) returns (r: seq<Membre>)
    requires TableValid(rows)
    ensures |r| == |rows.Keys|
    ensures forall i :: 0 <= i < |r| ==> r[i].id.Some? && ChercherParId(rows, r[i].id.value) == Some(r[i])
    ensures forall i, j :: 0 <= i < j < |r| ==> r[i].id != r[j].id
    ensures forall x :: x in rows ==> exists i :: 0 <= i < |r| && r[i].id == Some(x)
  {
    ValidTableReadable(rows);
    r := ConvertRows(rows, rows.Keys);
  }

  /** listerParStatut: exactly the stored members with status `statut`, each once. */
  method ListerParStatut(rows: Table, statut: StatutMembre) returns (r: seq<Membre>)
    requires TableValid(rows)
    ensures forall i :: 0 <= i < |r| ==>
              r[i].statut == Some(statut) && r[i].id.Some? && ChercherParId(rows, r[i].id.value) == Some(r[i])
    ensures forall i, j :: 0 <= i < j < |r| ==> r[i].id != r[j].id
    ensures forall x :: x in rows && rows[x].statut == Some(statut) ==> exists i :: 0 <= i < |r| && r[i].id == Some(x)
  {
    var keys := set x | x in rows && rows[x].statut == Some(statut);
    ValidTableReadable(rows);
    r := ConvertRows(rows, keys);
  }

  // ------------------------------------------------------------------ save

  /**
   * Whether the flush accepts `row` as row x: bean validation, the primary
   * key on an insert, the foreign key on id_parrain, and the two unique keys.
   */
  predicate Admissible(rows: Table, x: Uuid, row: MembreEntity, today: Date, insert: bool) {
    && ValidAt(row, today)
    && (insert ==> x !in rows)
    && (row.parrain.Some? ==> row.parrain.value in rows || row.parrain.value == x)
    && (forall y :: y in rows && y != x ==> rows[y].code != row.code)
    && (row.email.Some? ==> forall y :: y in rows && y != x ==> rows[y].email != row.email)
  }

  /**
   * persist and flush of row x, then entityToDomaine on it: a refused flush
   * is a constraint violation, a sponsor chain that leads back to x a
   * stack overflow; either way the transaction rolls back.
   */
  function Flush(rows: Table, x: Uuid, row: MembreEntity, today: Date, insert: bool): (r: Result<Saved, Error>)
    ensures r == Failure(ConstraintViolation) <==> !Admissible(rows, x, row, today, insert)
    ensures r.Failure? ==> r.error == ConstraintViolation || r.error == InternalError
    ensures r.Success? ==> r.value.rows == rows[x := row] && Some(r.value.membre) == ChercherParId(r.value.rows, x)
  {
    if !Admissible(rows, x, row, today, insert) then Failure(ConstraintViolation)
    else
      match ChercherParId(rows[x := row], x)
      case None => Failure(InternalError)
      case Some(m) => Success(Saved(rows[x := row], m))
  }

  /**
   * The sponsor link sauvegarder sets: when the member carries a sponsor
   * with an id, the row found under that id (none if absent); otherwise
   * the link is left as it is.
   */
  function SponsorLink(rows: Table, m: Membre, current: Option<Uuid>): Option<Uuid> {
    if m.parrain.Some? && m.parrain.value.id.Some? then
      var p := m.parrain.value.id.value;
      if p in rows then Some(p) else None
    else current
  }

  /** The update path: eleven fields copied from the member, the sponsor relinked. */
  function UpdatedEntity(rows: Table, stored: MembreEntity, m: Membre): MembreEntity {
    stored.(nom := m.nom, prenom := m.prenom, email := m.email, telephone := m.telephone,
            dateNaissance := m.dateNaissance, adresse := m.adresse, profession := m.profession,
            photo := m.photo, photoUrl := m.photoUrl, statut := m.statut, actif := m.actif,
            parrain := SponsorLink(rows, m, stored.parrain))
  }

  /**
   * The insert path before persist. A member with no id gets a generated
   * code when it has none (or an empty one) and its sponsor linked; a
   * member whose id is not stored is only converted.
   */
  function NewEntity(rows: Table, m: Membre, year: nat): Result<MembreEntity, Error> {
    var e := ToEntity(m);
    if m.id.Some? then Success(e)
    else if e.code.None? || e.code.value == "" then
      match GenererCodeUnique(rows, e.nom, e.prenom, year)
      case Failure(err) => Failure(err)
      case Success(code) => Success(e.(code := Some(code), parrain := SponsorLink(rows, m, None)))
    else Success(e.(parrain := SponsorLink(rows, m, None)))
  }

  /**
   * sauvegarder. A member whose id is stored updates that row; the row is
   * written, and preUpdate run, only if a field changed. Any other member
   * is inserted under the generated identifier, after prePersist.
   */
  function Sauvegarde(rows: Table, m: Membre, env: Env): (r: Result<Saved, Error>)
    ensures r.Success? && m.id.Some? && m.id.value in rows ==> r.value.rows.Keys == rows.Keys
    ensures r.Success? && (m.id.None? || m.id.value !in rows) ==> r.value.rows.Keys == rows.Keys + {env.newId}
    ensures r.Failure? ==> r.error == ConstraintViolation || r.error == InternalError
  {
    if m.id.Some? && m.id.value in rows then
      var x := m.id.value;
      var e := UpdatedEntity(rows, rows[x], m);
      if e == rows[x] then
        match ChercherParId(rows, x)
        case None => Failure(InternalError)
        case Some(read) => Success(Saved(rows, read))
      else Flush(rows, x, PreUpdate(e, env.now), env.today, false)
    else
      match NewEntity(rows, m, env.year)
      case Failure(err) => Failure(err)
      case Success(e) =>
        Flush(rows, env.newId, PrePersist(e, env.today, env.now).(id := Some(env.newId)), env.today, true)
  }

  lemma WriteKeepsWellFormed(rows: Table, x: Uuid, row: MembreEntity)
    requires RowsWellFormed(rows) && row.id == Some(x)
    requires row.parrain.Some? ==> row.parrain.value in rows || row.parrain.value == x
    ensures RowsWellFormed(rows[x := row])
  {
  }

  lemma WriteKeepsColumns(rows: Table, x: Uuid, row: MembreEntity)
    requires ColumnsHold(rows) && ColumnsValid(row)
    ensures ColumnsHold(rows[x := row])
  {
  }

  lemma WriteKeepsUniqueCodes(rows: Table, x: Uuid, row: MembreEntity)
    requires UniqueCodes(rows)
    requires forall y :: y in rows && y != x ==> rows[y].code != row.code
    ensures UniqueCodes(rows[x := row])
  {
  }

  lemma WriteKeepsUniqueEmails(rows: Table, x: Uuid, row: MembreEntity)
    requires UniqueEmails(rows)
    requires row.email.Some? ==> forall y :: y in rows && y != x ==> rows[y].email != row.email
    ensures UniqueEmails(rows[x := row])
  {
  }

  /** A written row that reads back does not close a sponsor cycle. */
  lemma FlushKeepsAcyclic(rows: Table, x: Uuid, row: MembreEntity, today: Date, insert: bool)
    requires Acyclic(rows)
    requires Flush(rows, x, row, today, insert).Success?
    ensures Acyclic(rows[x := row])
  {
    var rows' := rows[x := row];
    assert ChercherParId(rows', x).Some?;
    forall z | z != x
      ensures Parent(rows', z) == Parent(rows, z)
    {
    }
    ConvertedRowLeadsNotBack(rows', x);
    AcyclicAfterWrite(rows, rows', x);
  }

  /** A row the flush accepts, stored under its own id, keeps the table valid if it reads back. */
  lemma FlushKeepsTableValid(rows: Table, x: Uuid, row: MembreEntity, today: Date, insert: bool)
    requires TableValid(rows) && row.id == Some(x)
    requires Flush(rows, x, row, today, insert).Success?
    ensures TableValid(rows[x := row])
  {
    assert Admissible(rows, x, row, today, insert);
    WriteKeepsWellFormed(rows, x, row);
    WriteKeepsColumns(rows, x, row);
    WriteKeepsUniqueCodes(rows, x, row);
    WriteKeepsUniqueEmails(rows, x, row);
    FlushKeepsAcyclic(rows, x, row, today, insert);
  }

  /** Removing a row nobody names as sponsor keeps the table valid. */
  lemma DeleteKeepsTableValid(rows: Table, id: Uuid)
    requires TableValid(rows) && !Referenced(rows, id)
    ensures TableValid(rows - {id})
  {
    forall z ensures Parent(rows, z) != Some(id) {
      if z in rows {
        assert rows[z].parrain != Some(id);
      }
    }
    AcyclicAfterDelete(rows, id);
  }

  /** The member a save returns is what looking its id up in the new table gives. */
  lemma SavedMemberReadsBack(rows: Table, m: Membre, env: Env)
    requires RowsWellFormed(rows) && Sauvegarde(rows, m, env).Success?
    ensures var s := Sauvegarde(rows, m, env).value;
            s.membre.id.Some? && Some(s.membre) == ChercherParId(s.rows, s.membre.id.value)
  {
    var s := Sauvegarde(rows, m, env).value;
    if m.id.Some? && m.id.value in rows {
      var x := m.id.value;
      var e := UpdatedEntity(rows, rows[x], m);
      assert rows[x].id == Some(x);
      if e == rows[x] {
        assert s.rows == rows && Some(s.membre) == ChercherParId(rows, x);
      } else {
        var row := PreUpdate(e, env.now);
        assert row.id == Some(x);
        assert Sauvegarde(rows, m, env) == Flush(rows, x, row, env.today, false);
        assert Some(s.membre) == ChercherParId(s.rows, x);
      }
    } else {
      var e := NewEntity(rows, m, env.year).value;
      var row := PrePersist(e, env.today, env.now).(id := Some(env.newId));
      assert Sauvegarde(rows, m, env) == Flush(rows, env.newId, row, env.today, true);
      assert Some(s.membre) == ChercherParId(s.rows, env.newId);
    }
  }

  /** A successful save keeps the table valid. */
  lemma SauvegardeKeepsTableValid(rows: Table, m: Membre, env: Env)
    requires TableValid(rows) && Sauvegarde(rows, m, env).Success?
    ensures TableValid(Sauvegarde(rows, m, env).value.rows)
  {
    if m.id.Some? && m.id.value in rows {
      var x := m.id.value;
      var e := UpdatedEntity(rows, rows[x], m);
      if e != rows[x] {
        FlushKeepsTableValid(rows, x, PreUpdate(e, env.now), env.today, false);
      }
    } else {
      var e := NewEntity(rows, m, env.year).value;
      FlushKeepsTableValid(rows, env.newId, PrePersist(e, env.today, env.now).(id := Some(env.newId)), env.today, true);
    }
  }

  /**
   * preUpdate's effect as seen from outside: the modification time is now
   * when any other column of the row changed, and stays as it was otherwise.
   */
  predicate StampedIfDirty(before: MembreEntity, after: MembreEntity, now: Timestamp) {
    after.dateModification ==
      if after.(dateModification := before.dateModification) == before then before.dateModification else Some(now)
  }

  /**
   * Saving a stored member touches that row only, and in it only the eleven
   * copied fields, the sponsor link and the modification time: code, join
   * date and id are kept.
   */
  lemma UpdateKeepsIdentity(rows: Table, m: Membre, env: Env)
    requires m.id.Some? && m.id.value in rows
    requires Sauvegarde(rows, m, env).Success?
    ensures var x := m.id.value;
            var rows' := Sauvegarde(rows, m, env).value.rows;
            && rows'.Keys == rows.Keys
            && (forall y :: y in rows && y != x ==> rows'[y] == rows[y])
            && rows'[x].code == rows[x].code && rows'[x].dateAdhesion == rows[x].dateAdhesion
            && rows'[x].id == rows[x].id
            && rows'[x].nom == m.nom && rows'[x].prenom == m.prenom && rows'[x].email == m.email
            && rows'[x].telephone == m.telephone && rows'[x].dateNaissance == m.dateNaissance
            && rows'[x].adresse == m.adresse && rows'[x].profession == m.profession
            && rows'[x].photo == m.photo && rows'[x].photoUrl == m.photoUrl
            && rows'[x].statut == m.statut && rows'[x].actif == m.actif
            && rows'[x].parrain == SponsorLink(rows, m, rows[x].parrain)
            && StampedIfDirty(rows[x], rows'[x], env.now)
  {
  }

  /** The stored sponsor is replaced only when the member names one by id; it is never cleared otherwise. */
  lemma UpdateNeverClearsSponsor(rows: Table, m: Membre, env: Env)
    requires m.id.Some? && m.id.value in rows
    requires m.parrain.None? || m.parrain.value.id.None?
    requires Sauvegarde(rows, m, env).Success?
    ensures Sauvegarde(rows, m, env).value.rows[m.id.value].parrain == rows[m.id.value].parrain
  {
    UpdateKeepsIdentity(rows, m, env);
  }

  /**
   * Saving a member whose id is absent or not stored inserts exactly one
   * row under the generated identifier, stamped by prePersist; without an
   * id, a missing or empty code is generated and the sponsor linked.
   */
  lemma InsertAddsOneRow(rows: Table, m: Membre, env: Env)
    requires m.id.None? || m.id.value !in rows
    requires Sauvegarde(rows, m, env).Success?
    ensures var rows' := Sauvegarde(rows, m, env).value.rows;
            var row := rows'[env.newId];
            && env.newId !in rows
            && rows' == rows[env.newId := row]
            && row.id == Some(env.newId)
            && row.dateModification == Some(env.now)
            && row.dateAdhesion == (if m.dateAdhesion.None? then Some(env.today) else m.dateAdhesion)
            && SameData(m.(code := row.code, dateAdhesion := row.dateAdhesion, dateModification := row.dateModification), row)
            && (m.id.None? && (m.code.None? || m.code == Some("")) ==>
                  row.code == Some(GenererCodeUnique(rows, m.nom, m.prenom, env.year).value))
            && (m.id.None? ==> row.parrain == SponsorLink(rows, m, None))
            && (m.id.Some? ==> row.code == m.code && row.parrain.None?)
  {
    NewEntityShape(rows, m, env.year);
    var e := NewEntity(rows, m, env.year).value;
    var row := PrePersist(e, env.today, env.now).(id := Some(env.newId));
    assert Sauvegarde(rows, m, env) == Flush(rows, env.newId, row, env.today, true);
    assert Admissible(rows, env.newId, row, env.today, true);
  }

  /** The row the insert path builds, before the hook runs. */
  lemma NewEntityShape(rows: Table, m: Membre, year: nat)
    requires NewEntity(rows, m, year).Success?
    ensures var e := NewEntity(rows, m, year).value;
            && SameData(m.(code := e.code), e) && e.id.None?
            && (m.id.None? && (m.code.None? || m.code == Some("")) ==>
                  e.code == Some(GenererCodeUnique(rows, m.nom, m.prenom, year).value))
            && (m.id.None? ==> e.parrain == SponsorLink(rows, m, None))
            && (m.id.Some? ==> e.code == m.code && e.parrain.None?)
  {
  }

  /**
   * When a deletion has left only the second code of a prefix, inserting a
   * member with the same initials and year regenerates that code, and the
   * unique key on code refuses the insert.
   */
  lemma InsertAfterDeletionCollides(rows: Table, y: Uuid, m: Membre, env: Env)
    requires m.id.None? && m.code.None?
    requires m.nom.Some? && m.prenom.Some? && |m.nom.value| > 0 && |m.prenom.value| > 0 && env.year >= 10
    requires rows.Keys == {y}
    requires rows[y].code == Some(CodePrefix(m.nom.value, m.prenom.value, env.year) + Pad4(2))
    ensures Sauvegarde(rows, m, env) == Failure(ConstraintViolation)
  {
    GeneratedCodeRepeatsAfterDeletion(rows, y, m.nom.value, m.prenom.value, env.year);
  }

  /**
   * The unique key on email refuses an insert whose non-null email a stored
   * row already holds, the empty string included; a save never reports it
   * as EmailDejaUtilise.
   */
  lemma InsertWithTakenEmailRefused(rows: Table, m: Membre, env: Env, y: Uuid)
    requires m.id.None? && y in rows && m.email.Some? && rows[y].email == m.email
    ensures Sauvegarde(rows, m, env).Failure?
  {
    match NewEntity(rows, m, env.year)
    case Failure(_) =>
    case Success(e) =>
      var row := PrePersist(e, env.today, env.now).(id := Some(env.newId));
      assert row.email == m.email;
      assert !Admissible(rows, env.newId, row, env.today, true);
      assert Sauvegarde(rows, m, env) == Flush(rows, env.newId, row, env.today, true);
  }

  // ------------------------------------------------------------- the class

  /** Some stored row names `id` as its sponsor. */
  predicate Referenced(rows: Table, id: Uuid) {
    exists z :: z in rows && rows[z].parrain == Some(id)
  }

  class MembreRepositoryImpl {
    /** The table "membre", keyed by id. */
    var rows: Table

    ghost predicate Valid()
      reads this
    {
      TableValid(rows)
    }

    constructor()
      ensures Valid() && rows == map[]
    {
      rows := map[];
    }

    /** sauvegarder's steps, in their order; a failure leaves the table as it was. */
    method Sauvegarder(membre: Membre, env: Env) returns (r: Result<Membre, Error>)
      requires Valid()
      modifies this
      ensures Valid()
      ensures match Sauvegarde(old(rows), membre, env)
              case Success(s) => r == Success(s.membre) && rows == s.rows
              case Failure(e) => r == Failure(e) && rows == old(rows)
    {
      var x: Uuid;
      var entity: MembreEntity;
      var insert: bool;
      if membre.id.Some? && membre.id.value in rows {
        x := membre.id.value;
        entity := rows[x];
        entity := entity.(nom := membre.nom, prenom := membre.prenom, email := membre.email,
                          telephone := membre.telephone, dateNaissance := membre.dateNaissance,
                          adresse := membre.adresse, profession := membre.profession,
                          photo := membre.photo, photoUrl := membre.photoUrl,
                          statut := membre.statut, actif := membre.actif);
        if membre.parrain.Some? && membre.parrain.value.id.Some? {
          var p := membre.parrain.value.id.value;
          entity := entity.(parrain := if p in rows then Some(p) else None);
        }
        assert entity == UpdatedEntity(rows, rows[x], membre);
        if entity == rows[x] {
          // Nothing changed: no write, no preUpdate.
          var read := ChercherParId(rows, x);
          if read.None? {
            return Failure(InternalError);
          }
          return Success(read.value);
        }
        entity := PreUpdate(entity, env.now);
        insert := false;
      } else {
        entity := ToEntity(membre);
        if membre.id.None? {
          if entity.code.None? || entity.code.value == "" {
            var code := GenererCodeUnique(rows, entity.nom, entity.prenom, env.year);
            if code.Failure? {
              return Failure(code.error);
            }
            entity := entity.(code := Some(code.value));
          }
          if membre.parrain.Some? && membre.parrain.value.id.Some? {
            var p := membre.parrain.value.id.value;
            entity := entity.(parrain := if p in rows then Some(p) else None);
          }
        }
        assert NewEntity(rows, membre, env.year) == Success(entity);
        x := env.newId;
        entity := PrePersist(entity, env.today, env.now).(id := Some(x));
        insert := true;
      }
      var flushed := Flush(rows, x, entity, env.today, insert);
      assert Sauvegarde(rows, membre, env) == flushed;
      if flushed.Failure? {
        return Failure(flushed.error);
      }
      FlushKeepsTableValid(rows, x, entity, env.today, insert);
      rows := flushed.value.rows;
      return Success(flushed.value.membre);
    }

    /**
     * supprimer: false when no row has this id; refused by the foreign key
     * while another row names it as sponsor; otherwise the row is removed.
     */
    method Supprimer(id: Uuid) returns (r: Result<bool, Error>)
      requires Valid()
      modifies this
      ensures Valid()
      ensures id !in old(rows) ==> r == Success(false) && rows == old(rows)
      ensures id in old(rows) && Referenced(old(rows), id) ==> r == Failure(ConstraintViolation) && rows == old(rows)
      ensures id in old(rows) && !Referenced(old(rows), id) ==> r == Success(true) && rows == old(rows) - {id}
      ensures r == Success(true) ==> ChercherParId(rows, id).None?
    {
      if id !in rows {
        return Success(false);
      }
      if Referenced(rows, id) {
        return Failure(ConstraintViolation);
      }
      DeleteKeepsTableValid(rows, id);
      rows := rows - {id};
      return Success(true);
    }
  }
}

=== FILE: request.dfy ===
/** The body of a creation or update call (CreationMembreRequest) and its field constraints. */
module Requests {
  import opened Wrappers
  import opened Domain
  import opened Constraints

  datatype CreationMembreRequest = CreationMembreRequest(
    nom: Option<string>,
    prenom: Option<string>,
    email: Option<string>,
    telephone: Option<string>,
    dateNaissance: Option<Date>,
    adresse: Option<string>,
    profession: Option<string>,
    photoUrl: Option<string>,
    idParrain: Option<Uuid>)

  /**
   * The request passes validation on day `today`. adresse, photoUrl and
   * idParrain carry no constraint.
   */
  predicate Valid(r: CreationMembreRequest, today: Date) {
    && NotBlank(r.nom) && SizeBetween(r.nom, 2, 100)
    && NotBlank(r.prenom) && SizeBetween(r.prenom, 2, 100)
    && EmailFormat(r.email) && SizeAtMost(r.email, 150)
    && SizeAtMost(r.telephone, 20)
    && PastDate(r.dateNaissance, today)
    && SizeAtMost(r.profession, 100)
  }

  /**
   * A valid request carries a first and a last name of 2 to 100 characters,
   * so both have the first character the member code is built from.
   */
  lemma ValidHasInitials(r: CreationMembreRequest, today: Date)
    requires Valid(r, today)
    ensures r.nom.Some? && 2 <= |r.nom.value| <= 100
    ensures r.prenom.Some? && 2 <= |r.prenom.value| <= 100
  {
  }

  /** A missing first or last name, or a blank one, is refused. */
  lemma MissingOrBlankNameInvalid(r: CreationMembreRequest, today: Date)
    requires || r.nom.None? || r.prenom.None?
             || (r.nom.Some? && IsBlank(r.nom.value))
             || (r.prenom.Some? && IsBlank(r.prenom.value))
    ensures !Valid(r, today)
  {
  }

  /** adresse, photoUrl and idParrain carry no constraint: whatever they hold, a valid request stays valid. */
  lemma ValidDependsOnlyOnConstrainedFields(r: CreationMembreRequest, today: Date, adresse: Option<string>, photoUrl: Option<string>, idParrain: Option<Uuid>)
    requires Valid(r, today)
    ensures Valid(r.(adresse := adresse, photoUrl := photoUrl, idParrain := idParrain), today)
  {
  }

  /** A birth date on or after the day of validation is refused. */
  lemma FutureBirthDateInvalid(r: CreationMembreRequest, today: Date)
    requires r.dateNaissance.Some? && r.dateNaissance.value >= today
    ensures !Valid(r, today)
  {
  }
}

=== FILE: service.dfy ===
/**
 * The application service (MembreService): the business rules around the
 * repository. Each operation is first stated as a function of the table,
 * and the class's methods, which work through the repository, are proved
 * to follow it.
 */
module Service {
  import opened Wrappers
  import opened Domain
  import opened Errors
  import opened Constraints
  import opened Requests
  import opened Entity
  import opened Mapper
  import opened CodeGenerator
  import opened Repository

  /** The email check of creerMembre: a non-null, non-empty address some row already holds. */
  predicate EmailPrisALaCreation(rows: Table, email: Option<string>) {
    email.Some? && email.value != "" && EmailExiste(rows, email.value)
  }

  /**
   * The email check of mettreAJourMembre: a non-null, non-empty address,
   * different from the member's current one, that some row holds.
   */
  predicate EmailPrisALaMiseAJour(rows: Table, email: Option<string>, current: Option<string>) {
    email.Some? && email != current && email.value != "" && EmailExiste(rows, email.value)
  }

  /** creerMembre: email check, conversion, sponsor lookup, save. */
  function Creer(rows: Table, request: CreationMembreRequest, env: Env): Result<Saved, Error> {
    if EmailPrisALaCreation(rows, request.email) then Failure(EmailDejaUtilise(request.email.value))
    else
      var membre := RequestToDomaine(request, env.today);
      if request.idParrain.Some? then
        match ChercherParId(rows, request.idParrain.value)
        case None => Failure(SponsorNotFound(request.idParrain.value))
        case Some(parrain) => Sauvegarde(rows, membre.(parrain := Some(parrain)), env)
      else Sauvegarde(rows, membre, env)
  }

  /**
   * mettreAJourMembre: lookup, email check, the request applied, the
   * sponsor looked up when the request names another one, the modification
   * time stamped, save.
   */
  function MettreAJour(rows: Table, id: Uuid, request: CreationMembreRequest, env: Env): Result<Saved, Error> {
    match ChercherParId(rows, id)
    case None => Failure(NotFound(id))
    case Some(membre) =>
      if EmailPrisALaMiseAJour(rows, request.email, membre.email) then Failure(EmailDejaUtilise(request.email.value))
      else
        var updated := UpdateMembreFromRequest(Some(request), membre);
        if request.idParrain.Some? && (updated.parrain.None? || updated.parrain.value.id != request.idParrain) then
          match ChercherParId(rows, request.idParrain.value)
          case None => Failure(SponsorNotFound(request.idParrain.value))
          case Some(parrain) => Sauvegarde(rows, updated.(parrain := Some(parrain)).MettreAJourDateModification(env.now), env)
        else Sauvegarde(rows, updated.MettreAJourDateModification(env.now), env)
  }

  /** changerStatutMembre: lookup, new status, modification time stamped, save. */
  function ChangerStatut(rows: Table, id: Uuid, statut: Option<StatutMembre>, env: Env): Result<Saved, Error> {
    match ChercherParId(rows, id)
    case None => Failure(NotFound(id))
    case Some(membre) => Sauvegarde(rows, membre.(statut := statut).MettreAJourDateModification(env.now), env)
  }

  // ------------------------------------------------------------ creation

  /**
   * creerMembre refuses with EmailDejaUtilise exactly when the email is
   * non-null, non-empty and stored; null and empty emails skip the check.
   */
  lemma CreerEmailRule(rows: Table, request: CreationMembreRequest, env: Env)
    ensures (Creer(rows, request, env).Failure? && Creer(rows, request, env).error.EmailDejaUtilise?)
            <==> request.email.Some? && request.email.value != "" && EmailExiste(rows, request.email.value)
  {
  }

  /**
   * When the email passes, a sponsor id that is not stored fails with
   * SponsorNotFound; a created member's row is linked to the sponsor the
   * request names, and to none when it names none.
   */
  lemma CreerSponsorRule(rows: Table, request: CreationMembreRequest, env: Env)
    requires TableValid(rows)
    ensures !EmailPrisALaCreation(rows, request.email) && request.idParrain.Some? && request.idParrain.value !in rows ==>
              Creer(rows, request, env) == Failure(SponsorNotFound(request.idParrain.value))
    ensures Creer(rows, request, env).Success? ==>
              Creer(rows, request, env).value.rows[env.newId].parrain == request.idParrain
  {
    var membre := RequestToDomaine(request, env.today);
    if request.idParrain.Some? && request.idParrain.value in rows {
      ChercherParIdFindsStored(rows, request.idParrain.value);
    }
    if Creer(rows, request, env).Success? {
      if request.idParrain.Some? {
        InsertAddsOneRow(rows, membre.(parrain := ChercherParId(rows, request.idParrain.value)), env);
      } else {
        InsertAddsOneRow(rows, membre, env);
      }
    }
  }

  /**
   * A successful creation stores exactly one new row, under the generated
   * identifier, active, in status ACTIF, joined today, with the request's
   * data and the generated code; the member returned carries that identifier
   * and is in good standing.
   */
  lemma CreerSuccess(rows: Table, request: CreationMembreRequest, env: Env)
    requires RowsWellFormed(rows) && Creer(rows, request, env).Success?
    ensures var s := Creer(rows, request, env).value;
            var row := s.rows[env.newId];
            && env.newId !in rows
            && s.rows == rows[env.newId := row]
            && row.statut == Some(Actif) && row.actif && row.dateAdhesion == Some(env.today)
            && row.nom == request.nom && row.prenom == request.prenom && row.email == request.email
            && row.telephone == request.telephone && row.dateNaissance == request.dateNaissance
            && row.adresse == request.adresse && row.profession == request.profession
            && row.photoUrl == request.photoUrl && row.photo.None?
            && row.code == Some(GenererCodeUnique(rows, request.nom, request.prenom, env.year).value)
            && s.membre.id == Some(env.newId) && s.membre.EstEnRegle()
  {
    var membre := RequestToDomaine(request, env.today);
    var m := if request.idParrain.Some? then membre.(parrain := ChercherParId(rows, request.idParrain.value)) else membre;
    assert Creer(rows, request, env) == Sauvegarde(rows, m, env);
    InsertAddsOneRow(rows, m, env);
    SavedMemberReadsBack(rows, m, env);
  }

  /**
   * Creation succeeds for a valid request whose address and photo URL fit
   * their columns, whose email no row holds and whose sponsor is stored,
   * with a fresh identifier, a four-digit year, fewer than 9999 codes on
   * the prefix and a generated code no row holds.
   */
  lemma CreerSucceeds(rows: Table, request: CreationMembreRequest, env: Env)
    requires TableValid(rows) && Valid(request, env.today)
    requires SizeAtMost(request.adresse, 255) && SizeAtMost(request.photoUrl, 255)
    requires request.email.None? || !EmailExiste(rows, request.email.value)
    requires request.idParrain.None? || request.idParrain.value in rows
    requires env.newId !in rows && 1000 <= env.year < 10000
    requires CountCodePrefix(rows, CodePrefix(request.nom.value, request.prenom.value, env.year)) < 9999
    requires forall x :: x in rows ==> rows[x].code != Some(GenererCodeUnique(rows, request.nom, request.prenom, env.year).value)
    ensures Creer(rows, request, env).Success?
  {
    var nom := request.nom.value;
    var prenom := request.prenom.value;
    var membre := RequestToDomaine(request, env.today);
    var m := membre;
    if request.idParrain.Some? {
      ChercherParIdFindsStored(rows, request.idParrain.value);
      m := membre.(parrain := ChercherParId(rows, request.idParrain.value));
    }
    assert Creer(rows, request, env) == Sauvegarde(rows, m, env);
    GeneratedCodeShape(rows, nom, prenom, env.year);
    GeneratedCodeLength(rows, nom, prenom, env.year);
    var code := GenererCodeUnique(rows, request.nom, request.prenom, env.year).value;
    assert code[0] == 'M';
    assert NotBlank(Some(code));
    var row := PrePersist(ToEntity(m).(code := Some(code), parrain := request.idParrain), env.today, env.now).(id := Some(env.newId));
    assert NewEntity(rows, m, env.year) == Success(ToEntity(m).(code := Some(code), parrain := request.idParrain));
    assert ValidAt(row, env.today);
    assert Admissible(rows, env.newId, row, env.today, true);
    var rows' := rows[env.newId := row];
    WriteKeepsWellFormed(rows, env.newId, row);
    WriteKeepsColumns(rows, env.newId, row);
    WriteKeepsUniqueCodes(rows, env.newId, row);
    WriteKeepsUniqueEmails(rows, env.newId, row);
    AcyclicAfterInsert(rows, env.newId, row);
    ChercherParIdFindsStored(rows', env.newId);
  }

  /**
   * Two creations with the empty email: the service's check lets the
   * second through, and the unique key on email refuses it.
   */
  lemma CreerEmptyEmailTwice(rows: Table, first: CreationMembreRequest, second: CreationMembreRequest, env1: Env, env2: Env)
    requires first.email == Some("") && second.email == Some("")
    requires Creer(rows, first, env1).Success?
    ensures var after := Creer(rows, first, env1).value.rows;
            Creer(after, second, env2).Failure? && !Creer(after, second, env2).error.EmailDejaUtilise?
  {
    var membre := RequestToDomaine(first, env1.today);
    var m := if first.idParrain.Some? then membre.(parrain := ChercherParId(rows, first.idParrain.value)) else membre;
    assert Creer(rows, first, env1) == Sauvegarde(rows, m, env1);
    InsertAddsOneRow(rows, m, env1);
    var after := Creer(rows, first, env1).value.rows;
    assert after[env1.newId].email == Some("");
    assert !EmailPrisALaCreation(after, second.email);
    var membre2 := RequestToDomaine(second, env2.today);
    if second.idParrain.Some? {
      match ChercherParId(after, second.idParrain.value)
      case None =>
        assert Creer(after, second, env2) == Failure(SponsorNotFound(second.idParrain.value));
      case Some(parrain) =>
        var m2 := membre2.(parrain := Some(parrain));
        assert Creer(after, second, env2) == Sauvegarde(after, m2, env2);
        InsertWithTakenEmailRefused(after, m2, env2, env1.newId);
    } else {
      assert Creer(after, second, env2) == Sauvegarde(after, membre2, env2);
      InsertWithTakenEmailRefused(after, membre2, env2, env1.newId);
    }
  }

  // -------------------------------------------------------------- update

  /** On a valid table, mettreAJourMembre fails with NotFound exactly when the id is not stored. */
  lemma MettreAJourNotFound(rows: Table, id: Uuid, request: CreationMembreRequest, env: Env)
    requires TableValid(rows)
    ensures MettreAJour(rows, id, request, env) == Failure(NotFound(id)) <==> id !in rows
  {
    ChercherParIdFindsStored(rows, id);
  }

  /**
   * For a stored member, mettreAJourMembre refuses with EmailDejaUtilise
   * exactly when the new email is non-null, non-empty, different from the
   * member's current one and stored; resubmitting one's own email passes.
   */
  lemma MettreAJourEmailRule(rows: Table, id: Uuid, request: CreationMembreRequest, env: Env)
    requires TableValid(rows) && id in rows
    ensures (MettreAJour(rows, id, request, env).Failure? && MettreAJour(rows, id, request, env).error.EmailDejaUtilise?)
            <==> && request.email.Some? && request.email != rows[id].email && request.email.value != ""
                 && EmailExiste(rows, request.email.value)
  {
    ChercherParIdFindsStored(rows, id);
    var membre := ChercherParId(rows, id).value;
    assert membre.email == rows[id].email;
    if !EmailPrisALaMiseAJour(rows, request.email, membre.email) {
      var updated := UpdateMembreFromRequest(Some(request), membre);
      if request.idParrain.Some? && (updated.parrain.None? || updated.parrain.value.id != request.idParrain) {
        match ChercherParId(rows, request.idParrain.value)
        case None =>
        case Some(parrain) =>
          var m := updated.(parrain := Some(parrain)).MettreAJourDateModification(env.now);
          assert MettreAJour(rows, id, request, env) == Sauvegarde(rows, m, env);
      } else {
        var m := updated.MettreAJourDateModification(env.now);
        assert MettreAJour(rows, id, request, env) == Sauvegarde(rows, m, env);
      }
    }
  }

  /**
   * The member's sponsor as read back from a valid table carries the id of
   * the sponsor row, so saving it keeps the stored link.
   */
  lemma ReadSponsorLinksBack(rows: Table, id: Uuid, m: Membre)
    requires TableValid(rows) && id in rows
    requires ChercherParId(rows, id).Some?
    requires m.parrain == ChercherParId(rows, id).value.parrain
    ensures SponsorLink(rows, m, rows[id].parrain) == rows[id].parrain
  {
    if rows[id].parrain.Some? {
      var p := rows[id].parrain.value;
      assert p in rows && rows[p].id == Some(p);
    }
  }

  /**
   * A successful update rewrites only the member's row, and in it only the
   * eight request fields, the sponsor and the modification time: id, code,
   * join date, status and active flag stay. The sponsor becomes the one
   * the request names, or stays when it names none.
   */
  lemma MettreAJourKeeps(rows: Table, id: Uuid, request: CreationMembreRequest, env: Env)
    requires TableValid(rows) && MettreAJour(rows, id, request, env).Success?
    ensures var rows' := MettreAJour(rows, id, request, env).value.rows;
            && id in rows && rows'.Keys == rows.Keys
            && (forall y :: y in rows && y != id ==> rows'[y] == rows[y])
            && rows'[id].id == rows[id].id && rows'[id].code == rows[id].code
            && rows'[id].dateAdhesion == rows[id].dateAdhesion
            && rows'[id].statut == rows[id].statut && rows'[id].actif == rows[id].actif
            && rows'[id].nom == request.nom && rows'[id].prenom == request.prenom
            && rows'[id].email == request.email && rows'[id].telephone == request.telephone
            && rows'[id].dateNaissance == request.dateNaissance && rows'[id].adresse == request.adresse
            && rows'[id].profession == request.profession && rows'[id].photoUrl == request.photoUrl
            && rows'[id].photo == rows[id].photo
            && rows'[id].parrain == (if request.idParrain.Some? then request.idParrain else rows[id].parrain)
            && StampedIfDirty(rows[id], rows'[id], env.now)
  {
    ChercherParIdFindsStored(rows, id);
    var membre := ChercherParId(rows, id).value;
    var updated := UpdateMembreFromRequest(Some(request), membre);
    if request.idParrain.Some? && (updated.parrain.None? || updated.parrain.value.id != request.idParrain) {
      var p := request.idParrain.value;
      ChercherParIdFindsStored(rows, p);
      var m := updated.(parrain := ChercherParId(rows, p)).MettreAJourDateModification(env.now);
      UpdateKeepsIdentity(rows, m, env);
    } else {
      var m := updated.MettreAJourDateModification(env.now);
      ReadSponsorLinksBack(rows, id, m);
      if request.idParrain.Some? {
        var q := rows[id].parrain.value;
        assert q in rows && rows[q].id == Some(q);
      }
      UpdateKeepsIdentity(rows, m, env);
    }
  }

  /**
   * For a stored member whose new email passes, a sponsor id that is not
   * stored fails with SponsorNotFound, before anything is saved.
   */
  lemma MettreAJourSponsorNotFound(rows: Table, id: Uuid, request: CreationMembreRequest, env: Env)
    requires TableValid(rows) && id in rows
    requires !EmailPrisALaMiseAJour(rows, request.email, rows[id].email)
    requires request.idParrain.Some? && request.idParrain.value !in rows
    ensures MettreAJour(rows, id, request, env) == Failure(SponsorNotFound(request.idParrain.value))
  {
    ChercherParIdFindsStored(rows, id);
    if rows[id].parrain.Some? {
      var q := rows[id].parrain.value;
      assert q in rows && rows[q].id == Some(q);
    }
  }

  // --------------------------------------------------------------- status

  /** On a valid table, changerStatutMembre fails with NotFound exactly when the id is not stored. */
  lemma ChangerStatutNotFound(rows: Table, id: Uuid, statut: Option<StatutMembre>, env: Env)
    requires TableValid(rows)
    ensures ChangerStatut(rows, id, statut, env) == Failure(NotFound(id)) <==> id !in rows
  {
    ChercherParIdFindsStored(rows, id);
  }

  /**
   * A successful status change sets the status and changes nothing else,
   * except the modification time, in the member's row or anywhere else.
   */
  lemma ChangerStatutSets(rows: Table, id: Uuid, statut: Option<StatutMembre>, env: Env)
    requires TableValid(rows) && ChangerStatut(rows, id, statut, env).Success?
    ensures var rows' := ChangerStatut(rows, id, statut, env).value.rows;
            && id in rows && rows'.Keys == rows.Keys
            && (forall y :: y in rows && y != id ==> rows'[y] == rows[y])
            && rows'[id] == rows[id].(statut := statut, dateModification := rows'[id].dateModification)
            && StampedIfDirty(rows[id], rows'[id], env.now)
  {
    ChercherParIdFindsStored(rows, id);
    var membre := ChercherParId(rows, id).value;
    var m := membre.(statut := statut).MettreAJourDateModification(env.now);
    ReadSponsorLinksBack(rows, id, m);
    UpdateKeepsIdentity(rows, m, env);
  }

  /**
   * A null status (the query parameter left out) reaches setStatut(null);
   * the row is dirty, and the flush refuses it on the non-null status
   * column, so nothing is written.
   */
  lemma ChangerStatutNullRefused(rows: Table, id: Uuid, env: Env)
    requires TableValid(rows) && id in rows
    ensures ChangerStatut(rows, id, None, env) == Failure(ConstraintViolation)
  {
    ChercherParIdFindsStored(rows, id);
    var membre := ChercherParId(rows, id).value;
    var m := membre.(statut := None).MettreAJourDateModification(env.now);
    assert ColumnsValid(rows[id]);
    var e := UpdatedEntity(rows, rows[id], m);
    assert e.statut.None? && e != rows[id];
    assert !ColumnsValid(PreUpdate(e, env.now));
  }

  /**
   * Setting the status a member already has writes nothing: the row is
   * not dirty, so the table is left exactly as it was.
   */
  lemma ChangerStatutSameIsNoOp(rows: Table, id: Uuid, statut: Option<StatutMembre>, env: Env)
    requires TableValid(rows) && id in rows && rows[id].statut == statut
    ensures ChangerStatut(rows, id, statut, env).Success?
    ensures ChangerStatut(rows, id, statut, env).value.rows == rows
  {
    ChercherParIdFindsStored(rows, id);
    var membre := ChercherParId(rows, id).value;
    var m := membre.(statut := statut).MettreAJourDateModification(env.now);
    ReadSponsorLinksBack(rows, id, m);
    var e := UpdatedEntity(rows, rows[id], m);
    assert e.statut == rows[id].statut && e.parrain == rows[id].parrain;
    assert e.nom == rows[id].nom && e.prenom == rows[id].prenom && e.email == rows[id].email;
    assert e == rows[id];
  }

  /**
   * Changing to the same status a second time succeeds and leaves the
   * table exactly as the first change left it.
   */
  lemma ChangerStatutTwice(rows: Table, id: Uuid, statut: Option<StatutMembre>, env1: Env, env2: Env)
    requires TableValid(rows) && ChangerStatut(rows, id, statut, env1).Success?
    ensures var after := ChangerStatut(rows, id, statut, env1).value.rows;
            && ChangerStatut(after, id, statut, env2).Success?
            && ChangerStatut(after, id, statut, env2).value.rows == after
            && after[id].statut == statut
  {
    ChangerStatutSets(rows, id, statut, env1);
    var membre := ChercherParId(rows, id).value;
    var m := membre.(statut := statut).MettreAJourDateModification(env1.now);
    assert ChangerStatut(rows, id, statut, env1) == Sauvegarde(rows, m, env1);
    SauvegardeKeepsTableValid(rows, m, env1);
    var after := ChangerStatut(rows, id, statut, env1).value.rows;
    ChangerStatutSameIsNoOp(after, id, statut, env2);
  }

  // ------------------------------------------------------------ the class

  /** Responses built one for one from members read back from the table keep their ids and their reading. */
  lemma ResponsesFollowMembers(rows: Table, membres: seq<Membre>, r: seq<MembreResponse>)
    requires |r| == |membres|
    requires forall i :: 0 <= i < |membres| ==> r[i] == ToResponse(membres[i])
    requires forall i :: 0 <= i < |membres| ==>
               membres[i].id.Some? && ChercherParId(rows, membres[i].id.value) == Some(membres[i])
    ensures forall i :: 0 <= i < |r| ==> r[i].id == membres[i].id && r[i].statut == membres[i].statut
    ensures forall i :: 0 <= i < |r| ==>
              r[i].id.Some? && ChercherParId(rows, r[i].id.value).Some?
              && r[i] == ToResponse(ChercherParId(rows, r[i].id.value).value)
  {
  }

  class MembreService {
    const repository: MembreRepositoryImpl

    constructor(repository: MembreRepositoryImpl)
      ensures this.repository == repository
    {
      this.repository := repository;
    }

    ghost predicate Valid()
      reads repository
    {
      repository.Valid()
    }

    /** creerMembre; any failure leaves the table as it was. */
    method CreerMembre(request: CreationMembreRequest, env: Env) returns (r: Result<MembreResponse, Error>)
      requires Valid()
      modifies repository
      ensures Valid()
      ensures match Creer(old(repository.rows), request, env)
              case Success(s) => r == Success(ToResponse(s.membre)) && repository.rows == s.rows
              case Failure(e) => r == Failure(e) && repository.rows == old(repository.rows)
    {
      if request.email.Some? && request.email.value != "" {
        if EmailExiste(repository.rows, request.email.value) {
          return Failure(EmailDejaUtilise(request.email.value));
        }
      }
      var membre := RequestToDomaine(request, env.today);
      if request.idParrain.Some? {
        var parrain := ChercherParId(repository.rows, request.idParrain.value);
        if parrain.None? {
          return Failure(SponsorNotFound(request.idParrain.value));
        }
        membre := membre.(parrain := Some(parrain.value));
      }
      assert Creer(repository.rows, request, env) == Sauvegarde(repository.rows, membre, env);
      var saved := repository.Sauvegarder(membre, env);
      if saved.Failure? {
        return Failure(saved.error);
      }
      return Success(ToResponse(saved.value));
    }

    /** getMembre: the stored member's response, or NotFound. */
    method GetMembre(id: Uuid) returns (r: Result<MembreResponse, Error>)
      requires Valid()
      ensures id !in repository.rows <==> r == Failure(NotFound(id))
      ensures r.Success? ==> Some(r) == (match ChercherParId(repository.rows, id)
                                         case None => None
                                         case Some(m) => Some(Success(ToResponse(m))))
      ensures r.Success? ==> r.value.id == Some(id)
      ensures id in repository.rows ==> ChercherParId(repository.rows, id).Some?
                                        && r == Success(ToResponse(ChercherParId(repository.rows, id).value))
    {
      ChercherParIdFindsStored(repository.rows, id);
      var membre := ChercherParId(repository.rows, id);
      if membre.None? {
        return Failure(NotFound(id));
      }
      return Success(ToResponse(membre.value));
    }

    /** listerTousMembres: one response per stored member, each exactly once. */
    method ListerTousMembres() returns (r: seq<MembreResponse>)
      requires Valid()
      ensures |r| == |repository.rows.Keys|
      ensures forall i :: 0 <= i < |r| ==>
                r[i].id.Some? && ChercherParId(repository.rows, r[i].id.value).Some?
                && r[i] == ToResponse(ChercherParId(repository.rows, r[i].id.value).value)
      ensures forall i, j :: 0 <= i < j < |r| ==> r[i].id != r[j].id
      ensures forall x :: x in repository.rows ==> exists i :: 0 <= i < |r| && r[i].id == Some(x)
    {
      var membres := ListerTous(repository.rows);
      var responses := ToResponseList(Some(membres));
      r := responses.value;
      ResponsesFollowMembers(repository.rows, membres, r);
    }

    /** listerMembresParStatut: one response per stored member with that status, each exactly once. */
    method ListerMembresParStatut(statut: StatutMembre) returns (r: seq<MembreResponse>)
      requires Valid()
      ensures forall i :: 0 <= i < |r| ==>
                r[i].statut == Some(statut) && r[i].id.Some? && ChercherParId(repository.rows, r[i].id.value).Some?
                && r[i] == ToResponse(ChercherParId(repository.rows, r[i].id.value).value)
      ensures forall i, j :: 0 <= i < j < |r| ==> r[i].id != r[j].id
      ensures forall x :: x in repository.rows && repository.rows[x].statut == Some(statut) ==>
                exists i :: 0 <= i < |r| && r[i].id == Some(x)
    {
      var membres := ListerParStatut(repository.rows, statut);
      var responses := ToResponseList(Some(membres));
      r := responses.value;
      ResponsesFollowMembers(repository.rows, membres, r);
    }

    /** mettreAJourMembre; any failure leaves the table as it was. */
    method MettreAJourMembre(id: Uuid, request: CreationMembreRequest, env: Env) returns (r: Result<MembreResponse, Error>)
      requires Valid()
      modifies repository
      ensures Valid()
      ensures match MettreAJour(old(repository.rows), id, request, env)
              case Success(s) => r == Success(ToResponse(s.membre)) && repository.rows == s.rows
              case Failure(e) => r == Failure(e) && repository.rows == old(repository.rows)
      ensures r.Success? ==> id in old(repository.rows) && id in repository.rows
                             && StampedIfDirty(old(repository.rows)[id], repository.rows[id], env.now)
    {
      var found := ChercherParId(repository.rows, id);
      if found.None? {
        return Failure(NotFound(id));
      }
      var membre := found.value;
      if request.email.Some? && request.email != membre.email && request.email.value != ""
         && EmailExiste(repository.rows, request.email.value) {
        return Failure(EmailDejaUtilise(request.email.value));
      }
      membre := UpdateMembreFromRequest(Some(request), membre);
      if request.idParrain.Some? && (membre.parrain.None? || membre.parrain.value.id != request.idParrain) {
        var parrain := ChercherParId(repository.rows, request.idParrain.value);
        if parrain.None? {
          return Failure(SponsorNotFound(request.idParrain.value));
        }
        membre := membre.(parrain := Some(parrain.value));
      }
      membre := membre.MettreAJourDateModification(env.now);
      assert MettreAJour(repository.rows, id, request, env) == Sauvegarde(repository.rows, membre, env);
      var saved := repository.Sauvegarder(membre, env);
      if saved.Failure? {
        return Failure(saved.error);
      }
      MettreAJourKeeps(old(repository.rows), id, request, env);
      return Success(ToResponse(saved.value));
    }

    /** changerStatutMembre; any failure leaves the table as it was. */
    method ChangerStatutMembre(id: Uuid, nouveauStatut: Option<StatutMembre>, env: Env) returns (r: Result<MembreResponse, Error>)
      requires Valid()
      modifies repository
      ensures Valid()
      ensures match ChangerStatut(old(repository.rows), id, nouveauStatut, env)
              case Success(s) => r == Success(ToResponse(s.membre)) && repository.rows == s.rows
              case Failure(e) => r == Failure(e) && repository.rows == old(repository.rows)
      ensures r.Success? ==> id in old(repository.rows) && id in repository.rows
                             && repository.rows[id] == old(repository.rows)[id].(statut := nouveauStatut,
                                                         dateModification := repository.rows[id].dateModification)
                             && StampedIfDirty(old(repository.rows)[id], repository.rows[id], env.now)
    {
      var found := ChercherParId(repository.rows, id);
      if found.None? {
        return Failure(NotFound(id));
      }
      var membre := found.value.(statut := nouveauStatut);
      membre := membre.MettreAJourDateModification(env.now);
      assert ChangerStatut(repository.rows, id, nouveauStatut, env) == Sauvegarde(repository.rows, membre, env);
      var saved := repository.Sauvegarder(membre, env);
      if saved.Failure? {
        return Failure(saved.error);
      }
      ChangerStatutSets(old(repository.rows), id, nouveauStatut, env);
      return Success(ToResponse(saved.value));
    }

    /**
     * supprimerMembre: NotFound, without deleting, for an unknown id;
     * otherwise whatever supprimer gives.
     */
    method SupprimerMembre(id: Uuid) returns (r: Result<bool, Error>)
      requires Valid()
      modifies repository
      ensures Valid()
      ensures id !in old(repository.rows) ==> r == Failure(NotFound(id)) && repository.rows == old(repository.rows)
      ensures id in old(repository.rows) && Referenced(old(repository.rows), id) ==>
                r == Failure(ConstraintViolation) && repository.rows == old(repository.rows)
      ensures id in old(repository.rows) && !Referenced(old(repository.rows), id) ==>
                r == Success(true) && repository.rows == old(repository.rows) - {id}
    {
      ChercherParIdFindsStored(repository.rows, id);
      if ChercherParId(repository.rows, id).None? {
        return Failure(NotFound(id));
      }
      r := repository.Supprimer(id);
    }
  }
}

=== FILE: wrappers.dfy ===
/** Optional values and outcomes that either carry a value or an error. */
module Wrappers {

  /** A Java reference that may be null: None stands for null. */
  datatype Option<+T> = None | Some(value: T)

  /** The outcome of an operation that may throw: Failure carries the exception. */
  datatype Result<+R, +E> = Success(value: R) | Failure(error: E)
}
